=== FILE: README.md ===
# Fantasy basketball league analytics, modelled in Dafny

This project models the data-processing core of a fantasy-basketball
dashboard for a Sleeper league. The dashboard's pages and batch scripts all
start from the same inputs: the league's weekly transaction lists, its
rosters and members, and its draft picks. The model covers the following.

- **Transaction loading** (`Transactions`). Only complete transactions are
  kept. Pure drops are reclassified as "drop". The result is ordered newest
  first and comes with the sorted set of player ids involved.
- **Activity leaderboard** (`Leaderboard`). Per roster: moves, adds, drops
  and trades.
- **Player activity** (`Activity`). Per player: total moves, the roster
  that added them most often, and how many rosters ever added them.
- **Player timeline** (`Timeline`). One event per transaction that touches
  a player.
- **Rankings page** (`Scoring`, `Rankings`). The fantasy scoring formula
  with its bonus tiers, and the best game per ISO week. Then the per-player
  loop that looks up NBA ids and sorts out rows from not-found names, the
  ranking by average weekly best, Value Surplus, the sign of Log ROI, and
  the per-manager player counts.
- **Batch scripts**:
  - `ShapeTransactions`: cleans the weekly files and keeps per-player
    add/drop counters.
  - `SortStats`: sorts those counters and takes the top five.
  - `TeamStats`: sets each roster's win/loss record beside its move count.
  - `TeamWaiver`: waiver and free-agent counts per owner.
  - `DraftStats`: numbers each draft pick within its position.

Python dicts keep insertion order, and several outputs depend on that
order. They are modelled as `Dicts.Dict<K, V>`, a sequence of key/value
pairs with distinct keys. Assigning to an existing key overwrites that entry
in place; assigning to a new key appends. Every descending sort of the
source is `Sorting.SortDesc`, one stable descending sort on a numeric key.
Two sorts are different. The ascending string sort of the involved player
ids is `Text.SortedUnique`. The key sort that `groupby` does in the manager
summary is not modelled.

Fantasy scores are integers counted in half-points. Every weight is a
multiple of 0.5 and every bonus is a whole number of points, so no
fraction is lost.

The dashboard and the scripts take their data from several places: the
Sleeper and NBA web services, JSON files, the clock and Unicode tables. In
the model this data becomes parameters.

- The weekly responses are a sequence of sequences of `Raw.RawTx`.
- The game logs are a map from NBA id to a sequence of `Rankings.GameLine`.
- The ISO week of a game date is given with each game as a `Scoring.WeekKey`.
- The accent-stripping normaliser and `str.lower` are function parameters.
- The expected draft value is a parameter of type `int -> real`.

## Model

| member | source | states |
|---|---|---|
| Transactions.Classify | src/pages/transactions.py:64-67 | The type is "drop" exactly when the declared type (default "free_agent") is "free_agent", nothing is added and something is dropped, or when it was declared "drop". Otherwise the declared type is kept. A result of "free_agent" never describes a pure drop. |
| Transactions.ClassifyIdempotent | src/pages/transactions.py:64-67 | Classifying an already classified type again changes nothing. |
| Transactions.Normalize | src/pages/transactions.py:72-81 | The stored week is `leg`, or the fetch week when `leg` is absent. The timestamp defaults to 0. Adds, drops and the waiver sequence are carried unchanged. The type is the classified one. The transaction id defaults to the empty string. The roster list is carried when present and is empty when missing. |
| Transactions.KeptWeekSound | src/pages/transactions.py:58-60 | Every kept transaction is the normalised form of a complete transaction of that week's response. |
| Transactions.KeptWeekComplete | src/pages/transactions.py:58-60 | Every complete transaction of a week's response is kept. |
| Transactions.KeptExactlyComplete | src/pages/transactions.py:56-81 | Across all weeks, a record is kept exactly when it is the normalised form of a complete transaction of some week, tagged with that week. |
| Transactions.InvolvedIds | src/pages/transactions.py:69-70 | A player id is collected exactly when some kept transaction adds or drops that player. |
| Transactions.FetchAll | src/pages/transactions.py:47-84 | The transactions are a permutation of the kept ones, ordered newest first. The id list is strictly sorted, so it has no duplicates. An id is listed exactly when a returned transaction adds or drops that player. |
| Transactions.FetchAllStable | src/pages/transactions.py:83 | Transactions with equal timestamps keep the order in which they were fetched. |
| Text.SortedUnique | src/pages/transactions.py:84 | The result is strictly increasing and holds exactly the input's elements. |
| Leaderboard.VisitAll | src/pages/transactions.py:117-124 | The roster loop of one transaction bumps each roster's row once per listing of that roster. Nothing else changes. |
| Leaderboard.Initial | src/pages/transactions.py:110-113 | One zeroed row per roster of the name map, carrying that roster's team name, in map order. |
| Leaderboard.TallyIsExpected | src/pages/transactions.py:110-124 | Each roster's row equals an independent reference. Total Moves counts the roster's listings. Trades counts listings by trades. Adds and Drops count the players whose destination (for adds) or source (for drops) is that roster, once per listing. |
| Leaderboard.TallyStep | src/pages/transactions.py:115-124 | One more transaction changes a roster's row only by that roster's listings in it. |
| Leaderboard.TradesAtMostMoves | src/pages/transactions.py:120-122 | A roster's trade count never exceeds its move count. |
| Leaderboard.ListingsCountTransactions | src/pages/transactions.py:117-120 | If no transaction lists a roster twice, its Total Moves is the number of transactions that list it. |
| Leaderboard.WaiverClaimExample | src/pages/transactions.py:107 | A one-for-one waiver claim gives its roster one move, one add, one drop and no trade. Every other roster is left unchanged. |
| Leaderboard.TradeExample | src/pages/transactions.py:108 | A two-for-two trade gives each of its two rosters one move, one trade, one add and one drop. |
| Leaderboard.Build | src/pages/transactions.py:126-131 | The leaderboard has one row per roster. It is a permutation of the tallied rows, ordered by Total Moves, most first. |
| Leaderboard.LeaderboardRows | src/pages/transactions.py:103-131 | The leaderboard holds exactly the reference row of every roster. |
| Activity.RecordAddEffect | src/pages/transactions.py:149-153 | Recording an add raises the player's total and the count for the adding roster by one, and adds that roster to `teams`. Every other player is unchanged. `teams` stays equal to the key set of `adds_by`. |
| Activity.RecordDropEffect | src/pages/transactions.py:154-156 | Recording a drop raises only the dropped player's total. |
| Activity.AddedByEffect | src/pages/transactions.py:151-153 | One add raises the sum of `adds_by` by one and the adding roster's count by one. All other counts are unchanged. The tally stays well formed. |
| Activity.RecordAddsEffect | src/pages/transactions.py:149-153 | After a transaction's adds, a player's total grows by the number of adds of that player. The count for each roster grows by the adds of that player to that roster. |
| Activity.RecordDropsEffect | src/pages/transactions.py:154-156 | After a transaction's drops, a player's total grows by the number of drops of that player. |
| Activity.CollectIsExpected | src/pages/transactions.py:146-156 | After the whole loop, each player's total is their add events plus their drop events. Each roster's count is the player's adds by that roster. The sum of `adds_by` is their add events. |
| Activity.TeamsAtMostAdds | src/pages/transactions.py:153 | A roster is in a player's team set exactly when it acquired the player at least once. So the number of distinct adding rosters is at most the number of add events. `adds_by` is non-empty exactly when they were added at least once. |
| Activity.TopRoster | src/pages/transactions.py:162 | The chosen roster has the highest count, and every roster before it in `adds_by` has a strictly lower count. This is how `max` breaks ties. |
| Activity.Rows | src/pages/transactions.py:158-170 | Every row is built from a stats entry with a non-empty `adds_by`, and every such entry gets a row. |
| Activity.BuildRowsFaithful | src/pages/transactions.py:158-177 | Every row in the table describes a player added at least once. Total Moves is their adds plus drops. Teams is the number of distinct rosters that acquired them, which is at most their adds. Most Added By names a roster whose count is the highest any roster reached. |
| Activity.AddedPlayersHaveRows | src/pages/transactions.py:158-170 | Every player added at least once gets a row before the top-N cut. |
| Activity.AddedPlayersHaveRowsConverse | src/pages/transactions.py:159-161 | A player who was only ever dropped gets no row. |
| Activity.Build | src/pages/transactions.py:172-177 | The table has exactly min(`top_n`, number of added players) rows, ordered by Total Moves, most first. Every row is one of the full table's rows. No row left out has more Total Moves than a row kept. |
| Activity.BuildAsWritten | src/pages/transactions.py:172-177 | As written, the function fails exactly when no row was built. Otherwise it returns the table. |
| Activity.DropOnlyLeagueRaises | src/pages/transactions.py:172-174 | A league whose only transaction is a pure drop makes the source raise. |
| Activity.NoAddsNoRows | src/pages/transactions.py:158-177 | With the empty case repaired, a league with no adds gives an empty table. |
| Timeline.EventOf | src/pages/transactions.py:194-218 | Only the declared type "trade" gives a trade event, naming the source and destination rosters. Otherwise, presence in adds gives a waiver claim (priority is `seq + 1` when `seq` is known), a commissioner add, or a free-agent add, by type. A player who is only dropped gives a drop event naming the releasing roster. |
| Timeline.BuildAppend | src/pages/transactions.py:187-228 | The timeline of two transaction lists joined is the two timelines joined. |
| Timeline.BuildMatchesInvolving | src/pages/transactions.py:187-191 | The timeline has exactly one event per transaction that adds or drops the player. Every event comes from such a transaction, and every such transaction has its event. |
| Timeline.SwapWithinNonTradeIsAnAdd | src/pages/transactions.py:198-214 | A non-trade transaction that both adds and drops the player is reported as an add, not as a trade or a drop. |
| Scoring.DoubleBonusHalf | src/pages/2_Rankings.py:104-106 | Three or more categories at 10 earn the triple-double bonus. Exactly two earn the double-double bonus. Fewer earn nothing. |
| Scoring.PointsBonusHalf | src/pages/2_Rankings.py:107-108 | 40 points earn 2 bonus points. 50 points earn 4, because both tiers apply. |
| Scoring.BonusesIndependent | src/pages/2_Rankings.py:102-109 | The double tiers never stack. The score is the weighted sum plus the double tier plus the points tier. |
| Scoring.ScoreHalfPoints | src/pages/2_Rankings.py:102-109 | The score is the weighted sum of the box score plus the bonuses. The bonuses add between 0 and 6 points. |
| Scoring.ScoreMonotoneInPoints | src/pages/2_Rankings.py:102-109 | Scoring more points never lowers the fantasy score, bonuses included. |
| Scoring.ScoreAntitoneInTurnovers | src/pages/2_Rankings.py:25 | More turnovers never raise the score. |
| Scoring.LinearExample | src/pages/2_Rankings.py:19-27 | A 20-point, 5-rebound, 3-assist, 2-three game with no bonus scores 19 points. |
| Scoring.TripleDoubleExample | src/pages/2_Rankings.py:104-105 | A 10/10/10 triple-double scores 25 points plus the 2-point bonus. |
| Scoring.FiftyPointExample | src/pages/2_Rankings.py:107-108 | A bare 50-point game scores 25 points plus both points bonuses. |
| Scoring.MaxScoreIsMaximum | src/pages/2_Rankings.py:118 | A week has a maximum exactly when some game falls in it. That maximum is one of its games' scores, and no game of that week scores more. |
| Scoring.AddGame | src/pages/2_Rankings.py:118 | Folding one game into the per-week maxima keeps the weeks strictly ascending. The game's week gets the larger of its old maximum and the game's score. Every other week is unchanged. |
| Scoring.BestPerWeek | src/pages/2_Rankings.py:112-118 | One row per week with a game, in ascending (year, week) order. Each week's value is the highest score of that week's games. |
| Scoring.BestPerWeekIsWeeklyMaximum | src/pages/2_Rankings.py:112-118 | A week has a row exactly when some game falls in it, and that row's value is the week's maximum game score. |
| Rankings.Dedupe | src/pages/2_Rankings.py:170-174 | Names are distinct after de-duplication, and the same names survive. Each kept pick is the first pick of its name. |
| Rankings.NormIndex | src/pages/2_Rankings.py:164 | The normalised index has a key exactly for each normalised form of a plain index name. |
| Rankings.NormIndexLastWins | src/pages/2_Rankings.py:164 | When several names normalise alike, the id stored is that of the last such entry. |
| Rankings.LookupId | src/pages/2_Rankings.py:183 | No id is found exactly when the normalised index lacks the name or holds the falsy id 0, and the lower-cased name is not in the plain index. A non-zero id found comes from one of the two indexes. |
| Rankings.NormalizedKeyWins | src/pages/2_Rankings.py:183 | A usable id in the normalised index wins over anything the plain index holds. |
| Rankings.RowFor | src/pages/2_Rankings.py:201-226 | The row carries the pick's name, position, pick number and manager, and the number of games. A player with no games gets zero averages. Otherwise the best game is the highest game score. |
| Rankings.AveragesAtMostBest | src/pages/2_Rankings.py:222-224 | Neither the average weekly best nor the season average exceeds the best game. |
| Rankings.Evaluate | src/pages/2_Rankings.py:181-226 | A player is reported not found exactly when no id was found or the game log could not be fetched. Otherwise their row is built from their log. |
| Rankings.PartitionSound | src/pages/2_Rankings.py:180-226 | Every ranked row is some player's successful outcome, and every not-found name is some player's failure. |
| Rankings.PartitionComplete | src/pages/2_Rankings.py:180-226 | Every player's outcome is recorded, as a row or as a not-found name. |
| Rankings.PartitionExclusive | src/pages/2_Rankings.py:170-226 | With de-duplicated names, no name appears twice among the rows, nor both as a row and as not found. |
| Rankings.LogRoiSign | src/pages/2_Rankings.py:134-139 | The sign of ln(pick / rank) follows the ratio: positive above 1, zero at 1, negative below. A rank of 0 is a division by zero. A non-positive ratio is a math domain error. |
| Rankings.LogRoiSteals | src/pages/2_Rankings.py:134-139 | With a positive rank, Log ROI is positive exactly for a player drafted later than their rank (a steal), and negative exactly for one drafted earlier. |
| Rankings.ValueSurplus | src/pages/2_Rankings.py:247-251 | A player without games gets -100. Otherwise the surplus is the average weekly best minus the expected value of their pick. |
| Rankings.Rank | src/pages/2_Rankings.py:235-255 | The ranked rows are a permutation of the input, by average weekly best, highest first. Ranks run 1, 2, 3, ... down the table. Each row carries its Value Surplus and the Log ROI of its pick and rank. |
| Rankings.RanksAreOneToN | src/pages/2_Rankings.py:240-243 | Every rank from 1 to N occurs, on exactly one row. |
| Rankings.ZeroGamesSurplus | src/pages/2_Rankings.py:247-255 | A ranked player without games carries -100. Log ROI never divides by zero. |
| Rankings.ManagerCountsSum | src/pages/2_Rankings.py:368-375 | The Players Tracked counts add up to the number of ranked players that have a manager. |
| Rankings.ManagerCountsTally | src/pages/2_Rankings.py:374 | Each manager's count is the number of ranked players they manage. A manager has a row exactly when they manage at least one ranked player. |
| Rankings.ManagerCountsCoverAll | src/pages/2_Rankings.py:368-375 | When every player has a manager, the counts add up to the number of ranked players. |
| ShapeTransactions.RecordEffect | src/shape_transactions.py:24-42 | Counting a player once creates their entry if needed and raises its adds or drops by one, whichever the action is. Every other entry is unchanged. A name, once fixed, stays fixed. |
| ShapeTransactions.UpdateStats | src/shape_transactions.py:19-44 | The returned names are the ids' names in order. An empty id list changes nothing. The counters stay consistent: total is adds plus drops. |
| ShapeTransactions.UpdateStatsEffect | src/shape_transactions.py:24-42 | A player's adds (or drops) grow by the number of times their id is listed. An unlisted player's entry is unchanged. |
| ShapeTransactions.TotalIsAddsPlusDrops | src/shape_transactions.py:38-42 | Every entry's total is its adds plus its drops. |
| ShapeTransactions.CleanOne | src/shape_transactions.py:64-85 | The cleaned entry keeps status, type and roster ids, and names every add and drop. Only a complete transaction touches the counters. |
| ShapeTransactions.CleanOneEffect | src/shape_transactions.py:64-78 | A complete transaction raises a player's adds and drops by the number of times they are listed in them. An incomplete one raises nothing. |
| ShapeTransactions.CompleteTxCountsEachKeyOnce | src/shape_transactions.py:67-75 | In a complete transaction, each key of adds (or drops) is counted exactly once. |
| ShapeTransactions.CleanFile | src/shape_transactions.py:62-85 | One cleaned entry per transaction, in file order, whatever the counters hold. |
| ShapeTransactions.CleanFileEffect | src/shape_transactions.py:64-85 | Across a file, a player's adds and drops grow by that player's add and drop events in its complete transactions. |
| ShapeTransactions.IncompleteFileLeavesStats | src/shape_transactions.py:65-77 | A file with no complete transaction leaves every counter as it was. |
| ShapeTransactions.CleanFilesEntries | src/shape_transactions.py:47-88 | Each weekly file's output is the cleaned entries of its own transactions, while the counters carry over between files. |
| SortStats.SortStats | src/sort_player_stats.py:20-24 | The sorted stats are a permutation of the input, by total transactions, most first. |
| SortStats.SortStatsKeepsEntries | src/sort_player_stats.py:20-24 | Sorting keeps every player's entry and keeps ids distinct. |
| SortStats.SortStatsStable | src/sort_player_stats.py:20-24 | Players with equal totals keep their input order. |
| SortStats.TopFiveAreTop | src/sort_player_stats.py:32 | No player outside the top five has more transactions than one inside it. |
| TeamStats.WinPct | scripts/team_stats.py:37 | The win percentage is between 0 and 100. It is 0 with no decided games and exactly when there are no wins, and 100 exactly when there are wins and no losses. Otherwise it is wins over decided games, times 100. |
| TeamStats.InfoOf | scripts/team_stats.py:25-39 | Wins and losses count the 'W' and 'L' characters of the record. Together they never exceed its length. `win_pct` is WinPct of those counts. The name is the owner's display name when the owner is a known user, and "Team <rid>" otherwise. The move count starts at 0. |
| TeamStats.RecordExample | scripts/team_stats.py:29-37 | The record "WTWLW" is 3-1, 75 percent. |
| TeamStats.RosterInfo | scripts/team_stats.py:23-39 | One entry per roster id, all with zero moves. |
| TeamStats.RosterInfoEntry | scripts/team_stats.py:23-39 | A roster id's entry is the one built from the last roster with that id. |
| TeamStats.RosterEntry | scripts/team_stats.py:23-58 | After counting, a roster's entry holds that roster's name, wins, losses and win percentage, and its listings as moves. The sorted output contains that entry. |
| TeamStats.CountMoves | scripts/team_stats.py:51-56 | Each entry's moves grow by the number of times complete transactions list its roster. No entry is added or removed. |
| TeamStats.OneEntryPerRoster | scripts/team_stats.py:23-56 | There is an entry exactly for each roster id, the ids are distinct, and each entry's moves are its listings. |
| TeamStats.AnalyzeLeague | scripts/team_stats.py:59 | The output is a permutation of the entries, most moves first. |
| TeamStats.AnalyzeLeagueStable | scripts/team_stats.py:59 | Rosters with equal move counts keep their roster order. |
| TeamWaiver.RosterNamesAreOwners | scripts/team_waiver_stats.py:22-26 | There is an entry exactly for each roster id. Each is filed under its owner's display name, or "Unknown Team <rid>". |
| TeamWaiver.InitBoard | scripts/team_waiver_stats.py:30 | One zeroed counter per distinct team name. |
| TeamWaiver.CountAll | scripts/team_waiver_stats.py:43-58 | A team's total is the number of times complete transactions list one of its rosters. Its waiver and free-agent counters count only listings by that type. |
| TeamWaiver.TypedAtMostListings | scripts/team_waiver_stats.py:56-58 | Waiver plus free-agent listings never exceed all listings. |
| TeamWaiver.SubCountersWithinTotal | scripts/team_waiver_stats.py:53-58 | Unless some transaction's type is literally "total", a team's waiver and free-agent counters together stay within its total. |
| TeamWaiver.TotalTypeCountsTwice | scripts/team_waiver_stats.py:57-58 | A transaction of type "total" raises its team's total twice. |
| TeamWaiver.TeamMoves | scripts/team_waiver_stats.py:61 | The output is a permutation of the counters, by total, most first. |
| TeamWaiver.TeamMovesStable | scripts/team_waiver_stats.py:61 | Teams with equal totals keep their first-seen order. |
| DraftStats.ProcessDraftPicks | scripts/draft_stats.py:15-34 | One trimmed entry per pick, in order, carrying its name, id, position and pick number. Its position number is how many picks so far, this one included, share its position. |
| DraftStats.PositionNumbersConsecutive | scripts/draft_stats.py:24-32 | Within a position the numbers run 1, 2, 3, ... in draft order. |
| Text.Strip | scripts/draft_stats.py:28 | The stripped name is a slice of the input with no whitespace at either end. |
| Raw.UserNames | scripts/team_stats.py:20 | The user map has a key exactly for each member's user id. |
| Raw.UserNamesLastWins | scripts/team_stats.py:20 | Each user id maps to the display name of the last member with that id. |
| Dicts.FromPairsLastWins | scripts/team_waiver_stats.py:18 | Building a dict from pairs keeps, for each key, the value of the last pair with that key. |
| Sorting.SortDescIsStable | scripts/team_stats.py:59 | The descending sort keeps elements with equal keys in their input order. |

## Left out

- The exponential expected-value curve, `math.log`, the means as floats,
  and all `round` calls. Reals and exponentials are not modelled. Value
  Surplus takes the expected value as a parameter, and Log ROI is modelled
  by its sign and its error cases.
- Rankings.RowFor: the two averages are exact means, without rounding to
  one decimal.
- `normalize_name` and `str.lower`. Unicode normalisation and case folding
  are parameters of the model.
- The ISO year and week of a game date. The calendar is not modelled, so
  each game carries its week key.
- Fetching data and caching. The league API, the NBA static index, game-log
  fetches, `time.sleep`, and `st.cache_data`. Their results are inputs. A
  fetch that raises is modelled as an id missing from the logs map.
- File input and output, the JSON dumps and prints of the batch scripts,
  and which weekly files exist. The scripts' week loops become a sequence
  of files.
- The Streamlit UI: tabs, progress bars, styling, the weekly ledger, charts,
  `fmt_ts`, `type_badge`, and the timeline's display strings. Timeline.EventOf
  models each event's kind and rosters, not its Markdown text.
- src/pages/draft.py, src/pages/home.py and src/app.py. These are pages and
  an entry point outside the analytics core.
- Null and absent fields are conflated: `adds`, `drops`, `type`,
  `roster_ids`, roster `metadata` and `record`, a player's `full_name`,
  draft `metadata` and its fields. Python treats null and absent
  differently in these places:
  - The draft script prints a null first or last name as "None".
    DraftStats.FullName treats it as empty.
  - The draft script raises AttributeError on a null `metadata`
    (scripts/draft_stats.py:20-21). The model reads it as a pick with no
    metadata fields.
  - The draft script counts a null `position` under None, separately from
    "Unknown" (scripts/draft_stats.py:21-24). DraftStats.PositionOf puts it
    under "Unknown".
  - The team scripts raise TypeError on a null `roster_ids`. The model
    reads it as an empty list.
  - scripts/team_stats.py:29 raises AttributeError when `metadata` or
    `record` is null. TeamStats.InfoOf gives a 0-0 record.
  - src/shape_transactions.py:26-27 yields the name None for a player
    record whose `full_name` is null, and raises on a null player record.
    ShapeTransactions.NameOf gives "Unknown (<pid>)" in both cases.
- Leaderboard.Build, Activity.Build, Rankings.Rank: pandas `sort_values`
  does not promise a stable order for ties, so the model claims only the
  ordering and the permutation. The stability lemmas are stated only for
  the Python `sorted` calls and the list sort of the loader.
- Leaderboard.Build: a league with no rosters gives an empty DataFrame,
  whose sort raises KeyError in pandas. The model returns an empty
  leaderboard.
- Activity.Build: `top_n` is a natural number. A negative `head` argument
  is not modelled. Which of several rows with equal Total Moves survive the
  cut is not stated, since pandas does not fix the order of ties.
- Scoring.ScoreHalfPoints: a game log missing PTS, REB, AST, STL or BLK
  raises in the source. The model's box score always carries those columns;
  only TOV and FG3M may be missing.
- Text.Strip: only ASCII and Latin-1 whitespace counts as whitespace, not
  the full Unicode set.
- The manager summary's Avg Log ROI and Total Value Surplus (float means
  and sums) and its sort order. Only the Players Tracked count is modelled.
  As in `groupby`, players without a manager are not counted.

## Findings

| source | as written | input that shows it | evidently intended | confidence | as-written member | corrected member |
|---|---|---|---|---|---|---|
| src/pages/transactions.py:172-177 | The rows list is turned into a DataFrame and sorted by "Total Moves". With no rows the DataFrame has no columns, so `sort_values` raises KeyError. | A league whose only complete transaction is a pure drop, or a league with no transactions at all. | An empty activity table. | not executed | Activity.BuildAsWritten, Activity.DropOnlyLeagueRaises | Activity.Build, Activity.NoAddsNoRows |

=== FILE: activity.dfy ===
/** `build_player_activity`: per-player add/drop totals, the roster that
    added the player most often, and how many rosters ever added them. */
module Activity {
  import opened Wrappers
  import opened Dicts
  import opened Raw
  import opened Transactions
  import Sorting
  import Text

  /** What the rollup keeps per player: `total`, `adds_by` and `teams`. */
  datatype PlayerTally = PlayerTally(total: nat, addsBy: Dict<RosterId, nat>, teams: set<RosterId>)

  const Fresh := PlayerTally(0, [], {})

  /** The entry of player `p`, or a fresh one when `p` has none yet. */
  function Entry(stats: Dict<PlayerId, PlayerTally>, p: PlayerId): PlayerTally {
    Get(stats, p).GetOr(Fresh)
  }

  /** `adds_by.get(rid, 0)`. */
  function ByCount(s: PlayerTally, rid: RosterId): nat {
    Get(s.addsBy, rid).GetOr(0)
  }

  /** The shape every tally keeps: `teams` is exactly the key set of
      `adds_by`, and every count in `adds_by` is positive. */
  ghost predicate WellFormed(s: PlayerTally) {
    && DistinctKeys(s.addsBy)
    && (forall rid :: rid in s.teams <==> HasKey(s.addsBy, rid))
    && |s.teams| == |s.addsBy|
    && (forall i :: 0 <= i < |s.addsBy| ==> s.addsBy[i].1 >= 1)
  }

  function RecordAdd(stats: Dict<PlayerId, PlayerTally>, pid: PlayerId, rid: RosterId): Dict<PlayerId, PlayerTally> {
    var s := Entry(stats, pid);
    Put(stats, pid, PlayerTally(s.total + 1, Put(s.addsBy, rid, ByCount(s, rid) + 1), s.teams + {rid}))
  }

  function RecordDrop(stats: Dict<PlayerId, PlayerTally>, pid: PlayerId): Dict<PlayerId, PlayerTally> {
    var s := Entry(stats, pid);
    Put(stats, pid, s.(total := s.total + 1))
  }

  /** The adds loop of one transaction, in the order of its adds. */
  function RecordAdds(stats: Dict<PlayerId, PlayerTally>, adds: Dict<PlayerId, RosterId>): Dict<PlayerId, PlayerTally>
    decreases |adds|
  {
    if |adds| == 0 then stats else RecordAdds(RecordAdd(stats, adds[0].0, adds[0].1), adds[1..])
  }

  /** `for pid in tx["drops"]`. */
  function RecordDrops(stats: Dict<PlayerId, PlayerTally>, pids: seq<PlayerId>): Dict<PlayerId, PlayerTally>
    decreases |pids|
  {
    if |pids| == 0 then stats else RecordDrops(RecordDrop(stats, pids[0]), pids[1..])
  }

  /** The `stats` dict after the loop over `txs`. */
  function Collect(txs: seq<Tx>): Dict<PlayerId, PlayerTally> {
    if |txs| == 0 then []
    else
      var last := txs[|txs| - 1];
      RecordDrops(RecordAdds(Collect(txs[..|txs| - 1]), last.adds), Keys(last.drops))
  }

  // Reference definitions.

  /** Add events of player `p` over `txs`. */
  function AddEvents(txs: seq<Tx>, p: PlayerId): nat {
    if |txs| == 0 then 0 else AddEvents(txs[..|txs| - 1], p) + Count(Keys(txs[|txs| - 1].adds), p)
  }

  /** Drop events of player `p` over `txs`. */
  function DropEvents(txs: seq<Tx>, p: PlayerId): nat {
    if |txs| == 0 then 0 else DropEvents(txs[..|txs| - 1], p) + Count(Keys(txs[|txs| - 1].drops), p)
  }

  /** Times roster `rid` acquired player `p` over `txs`. */
  function AddsByRoster(txs: seq<Tx>, p: PlayerId, rid: RosterId): nat {
    if |txs| == 0 then 0 else AddsByRoster(txs[..|txs| - 1], p, rid) + Count(txs[|txs| - 1].adds, (p, rid))
  }

  /** What the loop keeps true of player `q`'s entry. */
  ghost predicate EntryOk(stats: Dict<PlayerId, PlayerTally>, q: PlayerId) {
    && WellFormed(Entry(stats, q))
    && (HasKey(stats, q) <==> Entry(stats, q).total > 0)
    && SumValues(Entry(stats, q).addsBy) <= Entry(stats, q).total
  }

  ghost predicate Invariant(stats: Dict<PlayerId, PlayerTally>) {
    DistinctKeys(stats) && forall q :: EntryOk(stats, q)
  }

  /** The tally after one more add by `rid`. */
  function AddedBy(s: PlayerTally, rid: RosterId): PlayerTally {
    PlayerTally(s.total + 1, Put(s.addsBy, rid, ByCount(s, rid) + 1), s.teams + {rid})
  }

  lemma {:induction false} AddedByCounts(s: PlayerTally, rid: RosterId)
    requires DistinctKeys(s.addsBy)
    ensures DistinctKeys(AddedBy(s, rid).addsBy)
    ensures SumValues(AddedBy(s, rid).addsBy) == SumValues(s.addsBy) + 1
    ensures forall r :: ByCount(AddedBy(s, rid), r) == ByCount(s, r) + (if r == rid then 1 else 0)
  {
    var a := Put(s.addsBy, rid, ByCount(s, rid) + 1);
    assert AddedBy(s, rid).addsBy == a;
    SumValuesPut(s.addsBy, rid, ByCount(s, rid) + 1);
  }

  lemma {:induction false} AddedByPositive(s: PlayerTally, rid: RosterId)
    requires WellFormed(s)
    ensures forall i :: 0 <= i < |AddedBy(s, rid).addsBy| ==> AddedBy(s, rid).addsBy[i].1 >= 1
  {
    var a := AddedBy(s, rid).addsBy;
    forall i | 0 <= i < |a| ensures a[i].1 >= 1 {
      if i < |s.addsBy| && a[i].0 != rid {
        assert a[i] == s.addsBy[i];
      } else {
        assert a[i].0 == rid;
        assert Get(a, rid) == Some(a[i].1);
      }
    }
  }

  lemma AddedByTeamKeys(s: PlayerTally, rid: RosterId)
    requires forall r :: r in s.teams <==> HasKey(s.addsBy, r)
    ensures forall r :: r in AddedBy(s, rid).teams <==> HasKey(AddedBy(s, rid).addsBy, r)
  {
    var a := Put(s.addsBy, rid, ByCount(s, rid) + 1);
    assert AddedBy(s, rid).addsBy == a;
    forall r ensures r in s.teams + {rid} <==> HasKey(a, r) {
      if r != rid {
        assert Get(a, r) == Get(s.addsBy, r);
      }
    }
  }

  lemma AddedByTeams(s: PlayerTally, rid: RosterId)
    requires WellFormed(s)
    ensures |AddedBy(s, rid).teams| == |AddedBy(s, rid).addsBy|
    ensures forall r :: r in AddedBy(s, rid).teams <==> HasKey(AddedBy(s, rid).addsBy, r)
  {
    AddedByTeamKeys(s, rid);
    PutShape(s.addsBy, rid, ByCount(s, rid) + 1);
    if HasKey(s.addsBy, rid) {
      assert s.teams + {rid} == s.teams;
    } else {
      assert |s.teams + {rid}| == |s.teams| + 1;
    }
  }

  lemma {:induction false} AddedByEffect(s: PlayerTally, rid: RosterId)
    requires WellFormed(s)
    ensures WellFormed(AddedBy(s, rid))
    ensures SumValues(AddedBy(s, rid).addsBy) == SumValues(s.addsBy) + 1
    ensures forall r :: ByCount(AddedBy(s, rid), r) == ByCount(s, r) + (if r == rid then 1 else 0)
  {
    AddedByCounts(s, rid);
    AddedByPositive(s, rid);
    AddedByTeams(s, rid);
  }

  lemma {:induction false} RecordAddEffect(stats: Dict<PlayerId, PlayerTally>, pid: PlayerId, rid: RosterId)
    requires Invariant(stats)
    ensures Invariant(RecordAdd(stats, pid, rid))
    ensures forall p :: p != pid ==> Entry(RecordAdd(stats, pid, rid), p) == Entry(stats, p)
    ensures Entry(RecordAdd(stats, pid, rid), pid) == AddedBy(Entry(stats, pid), rid)
  {
    assert EntryOk(stats, pid);
    AddedByEffect(Entry(stats, pid), rid);
    var next := RecordAdd(stats, pid, rid);
    forall q ensures EntryOk(next, q) {
      assert EntryOk(stats, q);
    }
  }

  lemma {:induction false} RecordDropEffect(stats: Dict<PlayerId, PlayerTally>, pid: PlayerId)
    requires Invariant(stats)
    ensures Invariant(RecordDrop(stats, pid))
    ensures forall p :: p != pid ==> Entry(RecordDrop(stats, pid), p) == Entry(stats, p)
    ensures Entry(RecordDrop(stats, pid), pid) == Entry(stats, pid).(total := Entry(stats, pid).total + 1)
  {
    var next := RecordDrop(stats, pid);
    forall q ensures EntryOk(next, q) {
      assert EntryOk(stats, q);
    }
  }

  lemma {:induction false} RecordAddsInvariant(stats: Dict<PlayerId, PlayerTally>, adds: Dict<PlayerId, RosterId>)
    requires Invariant(stats)
    ensures Invariant(RecordAdds(stats, adds))
    decreases |adds|
  {
    if |adds| > 0 {
      RecordAddEffect(stats, adds[0].0, adds[0].1);
      RecordAddsInvariant(RecordAdd(stats, adds[0].0, adds[0].1), adds[1..]);
    }
  }

  lemma {:induction false} RecordAddsTotals(stats: Dict<PlayerId, PlayerTally>, adds: Dict<PlayerId, RosterId>, p: PlayerId)
    requires Invariant(stats)
    ensures var s, s' := Entry(stats, p), Entry(RecordAdds(stats, adds), p);
            && s'.total == s.total + Count(Keys(adds), p)
            && SumValues(s'.addsBy) == SumValues(s.addsBy) + Count(Keys(adds), p)
    decreases |adds|
  {
    if |adds| > 0 {
      var pid, rid := adds[0].0, adds[0].1;
      var next := RecordAdd(stats, pid, rid);
      RecordAddEffect(stats, pid, rid);
      assert EntryOk(stats, p);
      if pid == p {
        AddedByEffect(Entry(stats, p), rid);
      }
      RecordAddsTotals(next, adds[1..], p);
      KeysCons(adds);
    }
  }

  lemma {:induction false} RecordAddsByRoster(stats: Dict<PlayerId, PlayerTally>, adds: Dict<PlayerId, RosterId>,
                                              p: PlayerId, r: RosterId)
    requires Invariant(stats)
    ensures ByCount(Entry(RecordAdds(stats, adds), p), r) == ByCount(Entry(stats, p), r) + Count(adds, (p, r))
    decreases |adds|
  {
    if |adds| > 0 {
      var pid, rid := adds[0].0, adds[0].1;
      var next := RecordAdd(stats, pid, rid);
      RecordAddEffect(stats, pid, rid);
      assert EntryOk(stats, p);
      if pid == p {
        AddedByEffect(Entry(stats, p), rid);
      }
      RecordAddsByRoster(next, adds[1..], p, r);
    }
  }

  /** What the adds of one transaction do to player `p`'s entry: one more
      total per listing of `p`, one more count for the listing roster. */
  lemma RecordAddsEffect(stats: Dict<PlayerId, PlayerTally>, adds: Dict<PlayerId, RosterId>, p: PlayerId)
    requires Invariant(stats)
    ensures Invariant(RecordAdds(stats, adds))
    ensures var s, s' := Entry(stats, p), Entry(RecordAdds(stats, adds), p);
            && s'.total == s.total + Count(Keys(adds), p)
            && SumValues(s'.addsBy) == SumValues(s.addsBy) + Count(Keys(adds), p)
            && (forall r :: ByCount(s', r) == ByCount(s, r) + Count(adds, (p, r)))
  {
    RecordAddsInvariant(stats, adds);
    RecordAddsTotals(stats, adds, p);
    forall r {
      RecordAddsByRoster(stats, adds, p, r);
    }
  }

  lemma {:induction false} RecordDropsEffect(stats: Dict<PlayerId, PlayerTally>, pids: seq<PlayerId>, p: PlayerId)
    requires Invariant(stats)
    ensures Invariant(RecordDrops(stats, pids))
    ensures var s, s' := Entry(stats, p), Entry(RecordDrops(stats, pids), p);
            s' == s.(total := s.total + Count(pids, p))
    decreases |pids|
  {
    if |pids| > 0 {
      var next := RecordDrop(stats, pids[0]);
      RecordDropEffect(stats, pids[0]);
      RecordDropsEffect(next, pids[1..], p);
    }
  }

  /** Player `p`'s entry after the loop holds exactly the reference counts:
      it exists iff the player was added or dropped at all, its total is
      their adds plus drops, and `adds_by` counts each acquiring roster. */
  lemma {:induction false} CollectIsExpected(txs: seq<Tx>, p: PlayerId)
    ensures Invariant(Collect(txs))
    ensures var s := Entry(Collect(txs), p);
            && (HasKey(Collect(txs), p) <==> AddEvents(txs, p) + DropEvents(txs, p) > 0)
            && s.total == AddEvents(txs, p) + DropEvents(txs, p)
            && SumValues(s.addsBy) == AddEvents(txs, p)
            && (forall r :: ByCount(s, r) == AddsByRoster(txs, p, r))
  {
    if |txs| == 0 {
      forall q ensures EntryOk([], q) {
        assert Entry([], q) == Fresh;
      }
    } else {
      var prev := txs[..|txs| - 1];
      var last := txs[|txs| - 1];
      CollectIsExpected(prev, p);
      var mid := RecordAdds(Collect(prev), last.adds);
      RecordAddsEffect(Collect(prev), last.adds, p);
      RecordDropsEffect(mid, Keys(last.drops), p);
      assert EntryOk(Collect(txs), p);
    }
  }

  /** `teams` holds exactly the rosters that acquired the player at least
      once, so there are never more of them than adds; players who were
      never added have no row. */
  lemma {:induction false} TeamsAtMostAdds(txs: seq<Tx>, p: PlayerId)
    ensures forall rid :: rid in Entry(Collect(txs), p).teams <==> AddsByRoster(txs, p, rid) > 0
    ensures |Entry(Collect(txs), p).teams| <= AddEvents(txs, p)
    ensures |Entry(Collect(txs), p).addsBy| > 0 <==> AddEvents(txs, p) > 0
  {
    CollectIsExpected(txs, p);
    var s := Entry(Collect(txs), p);
    assert EntryOk(Collect(txs), p);
    SizeAtMostSum(s.addsBy);
    if |s.addsBy| == 0 {
      assert SumValues(s.addsBy) == 0;
    }
    forall rid ensures rid in s.teams <==> AddsByRoster(txs, p, rid) > 0 {
      assert ByCount(s, rid) == AddsByRoster(txs, p, rid);
      if HasKey(s.addsBy, rid) {
        var j := Find(s.addsBy, rid);
        assert Get(s.addsBy, rid) == Some(s.addsBy[j].1);
      }
    }
  }

  /** The roster `max` picks from `adds_by` by count: the first one with the highest count. */
  function TopRoster(d: Dict<RosterId, nat>): (i: nat)
    requires |d| > 0
    ensures i < |d|
    ensures forall j :: 0 <= j < |d| ==> d[j].1 <= d[i].1
    ensures forall j :: 0 <= j < i ==> d[j].1 < d[i].1
  {
    if |d| == 1 then 0
    else
      var k := 1 + TopRoster(d[1..]);
      if d[0].1 >= d[k].1 then 0 else k
  }

  /** One row of the activity table. `pid` identifies the player the row
      describes; `player` is the displayed name. */
  datatype ActivityRow = ActivityRow(
    pid: PlayerId, player: string, totalMoves: nat,
    topRoster: RosterId, topTeam: string, topCount: nat, teams: nat)

  function RowOf(pid: PlayerId, s: PlayerTally, pidToName: map<PlayerId, string>,
                 rosterToName: Dict<RosterId, string>): ActivityRow
    requires |s.addsBy| > 0
  {
    var top := s.addsBy[TopRoster(s.addsBy)];
    ActivityRow(pid,
                if pid in pidToName then pidToName[pid] else pid,
                s.total,
                top.0,
                Get(rosterToName, top.0).GetOr("Roster " + Text.IntToString(top.0)),
                top.1,
                |s.teams|)
  }

  /** The rows loop: one row per entry with a non-empty `adds_by`, in `stats` order. */
  function Rows(stats: Dict<PlayerId, PlayerTally>, pidToName: map<PlayerId, string>,
                rosterToName: Dict<RosterId, string>): (rows: seq<ActivityRow>)
    ensures forall r :: r in rows ==>
              exists i :: 0 <= i < |stats| && stats[i].0 == r.pid && |stats[i].1.addsBy| > 0
                       && r == RowOf(stats[i].0, stats[i].1, pidToName, rosterToName)
    ensures forall i :: 0 <= i < |stats| && |stats[i].1.addsBy| > 0 ==>
              RowOf(stats[i].0, stats[i].1, pidToName, rosterToName) in rows
  {
    if |stats| == 0 then []
    else
      var head := if |stats[0].1.addsBy| > 0 then [RowOf(stats[0].0, stats[0].1, pidToName, rosterToName)] else [];
      var rest := Rows(stats[1..], pidToName, rosterToName);
      assert forall i :: 1 <= i < |stats| ==> stats[1..][i - 1] == stats[i];
      head + rest
  }

  function TotalKey(r: ActivityRow): real {
    r.totalMoves as real
  }

  /** `build_player_activity` with the empty case repaired: the `top_n`
      busiest added players, most moves first. */
  function Build(txs: seq<Tx>, pidToName: map<PlayerId, string>,
                 rosterToName: Dict<RosterId, string>, topN: nat): (rows: seq<ActivityRow>)
    ensures |rows| <= topN
    ensures Sorting.SortedDesc(rows, TotalKey)
    ensures var all := Rows(Collect(txs), pidToName, rosterToName);
            && |rows| == (if topN <= |all| then topN else |all|)
            && multiset(rows) <= multiset(all)
            && forall r, r' :: r in rows && r' in multiset(all) - multiset(rows) ==> r'.totalMoves <= r.totalMoves
  {
    var all := Rows(Collect(txs), pidToName, rosterToName);
    var sorted := Sorting.SortDesc(all, TotalKey);
    var r := Sorting.Take(sorted, topN);
    assert forall i, j :: 0 <= i < j < |r| ==> r[i] == sorted[i] && r[j] == sorted[j];
    Sorting.TakeIsSubMultiset(sorted, topN);
    forall x, y | y in r && x in multiset(all) - multiset(r)
      ensures x.totalMoves <= y.totalMoves
    {
      Sorting.TakeSortedIsTop(sorted, TotalKey, topN, x, y);
    }
    r
  }

  lemma {:induction false} BuildFromRows(txs: seq<Tx>, pidToName: map<PlayerId, string>,
                                         rosterToName: Dict<RosterId, string>, topN: nat, r: ActivityRow)
    requires r in Build(txs, pidToName, rosterToName, topN)
    ensures r in Rows(Collect(txs), pidToName, rosterToName)
  {
    var sorted := Sorting.SortDesc(Rows(Collect(txs), pidToName, rosterToName), TotalKey);
    assert r in sorted;
    assert r in multiset(sorted);
  }

  /** A row built from player `p`'s final entry reports that entry's reference counts. */
  lemma {:induction false} RowOfFaithful(txs: seq<Tx>, pidToName: map<PlayerId, string>,
                                         rosterToName: Dict<RosterId, string>, i: nat)
    requires i < |Collect(txs)| && |Collect(txs)[i].1.addsBy| > 0
    ensures var r := RowOf(Collect(txs)[i].0, Collect(txs)[i].1, pidToName, rosterToName);
            && AddEvents(txs, r.pid) > 0
            && r.totalMoves == AddEvents(txs, r.pid) + DropEvents(txs, r.pid)
            && r.teams <= AddEvents(txs, r.pid)
            && r.teams == |Entry(Collect(txs), r.pid).teams|
            && r.topCount == AddsByRoster(txs, r.pid, r.topRoster)
            && forall rid :: AddsByRoster(txs, r.pid, rid) <= r.topCount
  {
    var stats := Collect(txs);
    var p := stats[i].0;
    var s := stats[i].1;
    CollectIsExpected(txs, p);
    assert Get(stats, p) == Some(s);
    assert s == Entry(stats, p);
    TeamsAtMostAdds(txs, p);
    assert EntryOk(stats, p);
    var k := TopRoster(s.addsBy);
    assert Get(s.addsBy, s.addsBy[k].0) == Some(s.addsBy[k].1);
    forall rid ensures AddsByRoster(txs, p, rid) <= s.addsBy[k].1 {
      assert ByCount(s, rid) == AddsByRoster(txs, p, rid);
      if HasKey(s.addsBy, rid) {
        var j := Find(s.addsBy, rid);
        assert Get(s.addsBy, rid) == Some(s.addsBy[j].1);
      }
    }
  }

  /** Every row describes a player who was added at least once: its total is
      the player's adds plus drops, Teams is at most the player's adds, and
      Most Added By names a roster whose count is the player's highest. */
  lemma {:induction false} BuildRowsFaithful(txs: seq<Tx>, pidToName: map<PlayerId, string>,
                                             rosterToName: Dict<RosterId, string>, topN: nat, r: ActivityRow)
    requires r in Build(txs, pidToName, rosterToName, topN)
    ensures AddEvents(txs, r.pid) > 0
    ensures r.totalMoves == AddEvents(txs, r.pid) + DropEvents(txs, r.pid)
    ensures r.teams <= AddEvents(txs, r.pid)
    ensures r.teams == |Entry(Collect(txs), r.pid).teams|
    ensures r.topCount == AddsByRoster(txs, r.pid, r.topRoster)
    ensures forall rid :: AddsByRoster(txs, r.pid, rid) <= r.topCount
  {
    var stats := Collect(txs);
    BuildFromRows(txs, pidToName, rosterToName, topN, r);
    var i :| 0 <= i < |stats| && stats[i].0 == r.pid && |stats[i].1.addsBy| > 0
             && r == RowOf(stats[i].0, stats[i].1, pidToName, rosterToName);
    RowOfFaithful(txs, pidToName, rosterToName, i);
  }

  /** Every player added at least once has a row before the top-N cut. */
  lemma {:induction false} AddedPlayersHaveRows(txs: seq<Tx>, pidToName: map<PlayerId, string>,
                             rosterToName: Dict<RosterId, string>, p: PlayerId)
    requires AddEvents(txs, p) > 0
    ensures exists r :: r in Rows(Collect(txs), pidToName, rosterToName) && r.pid == p
  {
    var stats := Collect(txs);
    CollectIsExpected(txs, p);
    TeamsAtMostAdds(txs, p);
    var i := Find(stats, p);
    assert Get(stats, p) == Some(stats[i].1);
    assert RowOf(stats[i].0, stats[i].1, pidToName, rosterToName) in Rows(stats, pidToName, rosterToName);
  }

  // The source as written: `pd.DataFrame([])` has no "Total Moves" column,
  // so `sort_values("Total Moves")` raises KeyError when no row was built.

  datatype Error = KeyError(column: string)

  function BuildAsWritten(txs: seq<Tx>, pidToName: map<PlayerId, string>,
                          rosterToName: Dict<RosterId, string>, topN: nat): (r: Result<seq<ActivityRow>, Error>)
    ensures r.Failure? <==> Rows(Collect(txs), pidToName, rosterToName) == []
    ensures r.Success? ==> r.value == Build(txs, pidToName, rosterToName, topN)
  {
    if Rows(Collect(txs), pidToName, rosterToName) == [] then Failure(KeyError("Total Moves"))
    else Success(Build(txs, pidToName, rosterToName, topN))
  }

  /** A league whose only transaction is a pure drop makes the source raise. */
  lemma {:induction false} DropOnlyLeagueRaises(tx: Tx, pidToName: map<PlayerId, string>, rosterToName: Dict<RosterId, string>)
    requires tx.adds == [] && tx.txType == "drop" && |tx.drops| > 0
    ensures BuildAsWritten([tx], pidToName, rosterToName, 15).Failure?
  {
    var stats := Collect([tx]);
    var rows := Rows(stats, pidToName, rosterToName);
    if rows != [] {
      var r := rows[0];
      AddedPlayersHaveRowsConverse(stats, pidToName, rosterToName, [tx], r);
      assert false;
    }
  }

  lemma {:induction false} AddedPlayersHaveRowsConverse(stats: Dict<PlayerId, PlayerTally>, pidToName: map<PlayerId, string>,
                                      rosterToName: Dict<RosterId, string>, txs: seq<Tx>, r: ActivityRow)
    requires stats == Collect(txs)
    requires r in Rows(stats, pidToName, rosterToName)
    ensures AddEvents(txs, r.pid) > 0
  {
    var i :| 0 <= i < |stats| && stats[i].0 == r.pid && |stats[i].1.addsBy| > 0
             && r == RowOf(stats[i].0, stats[i].1, pidToName, rosterToName);
    CollectIsExpected(txs, r.pid);
    assert Get(stats, r.pid) == Some(stats[i].1);
    TeamsAtMostAdds(txs, r.pid);
  }

  /** The repaired rollup never fails: a league with no adds gives an empty table. */
  lemma {:induction false} NoAddsNoRows(txs: seq<Tx>, pidToName: map<PlayerId, string>, rosterToName: Dict<RosterId, string>, topN: nat)
    requires forall i :: 0 <= i < |txs| ==> txs[i].adds == []
    ensures Build(txs, pidToName, rosterToName, topN) == []
  {
    var rows := Rows(Collect(txs), pidToName, rosterToName);
    if rows != [] {
      var r := rows[0];
      AddedPlayersHaveRowsConverse(Collect(txs), pidToName, rosterToName, txs, r);
      NoAddEvents(txs, r.pid);
    }
  }

  lemma {:induction false} NoAddEvents(txs: seq<Tx>, p: PlayerId)
    requires forall i :: 0 <= i < |txs| ==> txs[i].adds == []
    ensures AddEvents(txs, p) == 0
  {
    if |txs| > 0 {
      NoAddEvents(txs[..|txs| - 1], p);
    }
  }
}

=== FILE: dicts.dfy ===
/** Python's insertion-ordered `dict`, as a sequence of (key, value) entries
    whose keys are distinct. Assigning to an existing key keeps its position;
    assigning to a new key appends it. */
module Dicts {
  import opened Wrappers

  type Dict<K, V> = seq<(K, V)>

  /** The keys, in insertion order. */
  function Keys<K(==,!new), V>(d: Dict<K, V>): (ks: seq<K>)
    ensures |ks| == |d|
    ensures forall i :: 0 <= i < |d| ==> ks[i] == d[i].0
    ensures forall k :: k in ks <==> HasKey(d, k)
  {
    seq(|d|, i requires 0 <= i < |d| => d[i].0)
  }

  /** The values, in insertion order (Python's `d.values()`). */
  function Values<K, V>(d: Dict<K, V>): (vs: seq<V>)
    ensures |vs| == |d|
    ensures forall i :: 0 <= i < |d| ==> vs[i] == d[i].1
  {
    seq(|d|, i requires 0 <= i < |d| => d[i].1)
  }

  predicate DistinctKeys<K(==), V>(d: Dict<K, V>) {
    forall i, j :: 0 <= i < j < |d| ==> d[i].0 != d[j].0
  }

  predicate HasKey<K(==), V>(d: Dict<K, V>, k: K) {
    exists i :: 0 <= i < |d| && d[i].0 == k
  }

  /** Position of the first entry with key `k`. */
  function Find<K(==), V>(d: Dict<K, V>, k: K): (i: nat)
    requires HasKey(d, k)
    ensures i < |d| && d[i].0 == k
    ensures forall j :: 0 <= j < i ==> d[j].0 != k
  {
    if d[0].0 == k then 0
    else
      assert HasKey(d[1..], k) by {
        var i :| 0 <= i < |d| && d[i].0 == k;
        assert d[1..][i - 1].0 == k;
      }
      1 + Find(d[1..], k)
  }

  /** `d.get(k)`. */
  function Get<K(==), V>(d: Dict<K, V>, k: K): (r: Option<V>)
    ensures r.Some? <==> HasKey(d, k)
    ensures r.Some? ==> exists i :: 0 <= i < |d| && d[i] == (k, r.value)
    ensures forall i :: 0 <= i < |d| && d[i].0 == k && DistinctKeys(d) ==> r == Some(d[i].1)
  {
    if HasKey(d, k) then Some(d[Find(d, k)].1) else None
  }

  lemma FindIs<K, V>(d: Dict<K, V>, k: K, i: nat)
    requires i < |d| && d[i].0 == k
    requires forall j :: 0 <= j < i ==> d[j].0 != k
    ensures HasKey(d, k) && Find(d, k) == i
  {
  }

  /** `d[k] = v`. */
  function Put<K(==,!new), V>(d: Dict<K, V>, k: K, v: V): (r: Dict<K, V>)
    ensures DistinctKeys(d) ==> DistinctKeys(r)
    ensures Get(r, k) == Some(v)
    ensures forall k' :: k' != k ==> Get(r, k') == Get(d, k')
  {
    PutAt(d, k, v);
    forall k' | k' != k
      ensures Get(Assign(d, k, v), k') == Get(d, k')
    {
      PutElsewhere(d, k, v, k');
    }
    Assign(d, k, v)
  }

  /** The entries after `d[k] = v`: overwritten in place or appended. */
  function Assign<K(==), V>(d: Dict<K, V>, k: K, v: V): Dict<K, V> {
    if HasKey(d, k) then d[Find(d, k) := (k, v)] else d + [(k, v)]
  }

  lemma PutAt<K(!new), V>(d: Dict<K, V>, k: K, v: V)
    ensures DistinctKeys(d) ==> DistinctKeys(Assign(d, k, v))
    ensures Get(Assign(d, k, v), k) == Some(v)
  {
    var i := if HasKey(d, k) then Find(d, k) else |d|;
    FindIs(Assign(d, k, v), k, i);
  }

  lemma PutElsewhere<K, V>(d: Dict<K, V>, k: K, v: V, k': K)
    requires k' != k
    ensures Get(Assign(d, k, v), k') == Get(d, k')
  {
    var r := Assign(d, k, v);
    if HasKey(d, k') {
      var j := Find(d, k');
      FindIs(r, k', j);
    }
  }

  /** Where `d[k] = v` puts the entry: in place of an existing key, which
      leaves the key order alone, or appended for a new key; every other
      entry stays where it was. */
  lemma PutShape<K(!new), V>(d: Dict<K, V>, k: K, v: V)
    ensures HasKey(d, k) ==> |Put(d, k, v)| == |d| && Keys(Put(d, k, v)) == Keys(d)
    ensures !HasKey(d, k) ==> Put(d, k, v) == d + [(k, v)]
    ensures forall i :: 0 <= i < |d| && d[i].0 != k ==> Put(d, k, v)[i] == d[i]
  {
    if HasKey(d, k) {
      var i := Find(d, k);
      assert Put(d, k, v) == d[i := (k, v)];
      assert Keys(d[i := (k, v)]) == Keys(d);
    } else {
      assert Put(d, k, v) == d + [(k, v)];
    }
  }

  /** Number of occurrences of `x` in `s`. */
  function Count<T(==)>(s: seq<T>, x: T): (n: nat)
    ensures n <= |s|
    ensures n == 0 <==> x !in s
  {
    if |s| == 0 then 0 else (if s[0] == x then 1 else 0) + Count(s[1..], x)
  }

  lemma {:induction false} CountAppend<T>(a: seq<T>, b: seq<T>, x: T)
    ensures Count(a + b, x) == Count(a, x) + Count(b, x)
  {
    if |a| == 0 {
      assert a + b == b;
    } else {
      assert (a + b)[1..] == a[1..] + b;
      CountAppend(a[1..], b, x);
    }
  }

  lemma {:induction false} CountSnoc<T>(s: seq<T>, x: T)
    requires |s| > 0
    ensures Count(s, x) == Count(s[..|s| - 1], x) + (if s[|s| - 1] == x then 1 else 0)
  {
    if |s| > 1 {
      CountSnoc(s[1..], x);
      assert s[1..][..|s| - 2] == s[..|s| - 1][1..];
    }
  }

  /** Sum of the values of a counter dict. */
  function SumValues<K>(d: Dict<K, nat>): nat {
    if |d| == 0 then 0 else d[0].1 + SumValues(d[1..])
  }

  lemma {:induction false} SumValuesUpdate<K>(d: Dict<K, nat>, i: nat, e: (K, nat))
    requires i < |d|
    ensures SumValues(d[i := e]) == SumValues(d) - d[i].1 + e.1
  {
    if i > 0 {
      assert d[i := e][1..] == d[1..][i - 1 := e];
      SumValuesUpdate(d[1..], i - 1, e);
    }
  }

  lemma {:induction false} SumValuesAppend<K>(d: Dict<K, nat>, e: (K, nat))
    ensures SumValues(d + [e]) == SumValues(d) + e.1
  {
    if |d| > 0 {
      assert (d + [e])[1..] == d[1..] + [e];
      SumValuesAppend(d[1..], e);
    }
  }

  /** `d[k] = v` changes the sum by `v` minus the old value of `k`. */
  lemma SumValuesPut<K(!new)>(d: Dict<K, nat>, k: K, v: nat)
    requires DistinctKeys(d)
    ensures SumValues(Put(d, k, v)) == SumValues(d) - Get(d, k).GetOr(0) + v
  {
    if HasKey(d, k) {
      SumValuesUpdate(d, Find(d, k), (k, v));
    } else {
      SumValuesAppend(d, (k, v));
    }
  }

  /** A counter dict whose counts are all positive has no more keys than its total. */
  lemma {:induction false} SizeAtMostSum<K>(d: Dict<K, nat>)
    requires forall i :: 0 <= i < |d| ==> d[i].1 >= 1
    ensures |d| <= SumValues(d)
  {
    if |d| > 0 {
      SizeAtMostSum(d[1..]);
    }
  }

  lemma KeysCons<K(!new), V>(d: Dict<K, V>)
    requires |d| > 0
    ensures Keys(d) == [d[0].0] + Keys(d[1..])
  {
  }

  /** A dict built from `pairs` in order, as `dict(pairs)` or a dict
      comprehension does: a repeated key keeps its first position and takes
      its last value. */
  function FromPairs<K(==,!new), V>(pairs: seq<(K, V)>): (d: Dict<K, V>)
    ensures DistinctKeys(d)
    ensures |d| <= |pairs|
  {
    if |pairs| == 0 then []
    else Put(FromPairs(pairs[..|pairs| - 1]), pairs[|pairs| - 1].0, pairs[|pairs| - 1].1)
  }

  predicate PairKeyed<K(==), V>(pairs: seq<(K, V)>, k: K) {
    exists i :: 0 <= i < |pairs| && pairs[i].0 == k
  }

  /** Pair `i` is the last one with key `k`. */
  predicate LastPairAt<K(==), V>(pairs: seq<(K, V)>, k: K, i: int) {
    0 <= i < |pairs| && pairs[i].0 == k && forall j :: i < j < |pairs| ==> pairs[j].0 != k
  }

  lemma PairKeyedSnoc<K(!new), V>(pairs: seq<(K, V)>, k: K)
    requires |pairs| > 0
    ensures PairKeyed(pairs, k) <==> PairKeyed(pairs[..|pairs| - 1], k) || pairs[|pairs| - 1].0 == k
  {
    var init := pairs[..|pairs| - 1];
    if PairKeyed(pairs, k) && pairs[|pairs| - 1].0 != k {
      var i :| 0 <= i < |pairs| && pairs[i].0 == k;
      assert init[i] == pairs[i];
    }
    if PairKeyed(init, k) {
      var i :| 0 <= i < |init| && init[i].0 == k;
      assert pairs[i] == init[i];
    }
  }

  lemma FromPairsSnoc<K(!new), V>(pairs: seq<(K, V)>, k: K)
    requires |pairs| > 0
    ensures Get(FromPairs(pairs), k) ==
              if pairs[|pairs| - 1].0 == k then Some(pairs[|pairs| - 1].1)
              else Get(FromPairs(pairs[..|pairs| - 1]), k)
  {
  }

  /** Exactly the keys of the pairs become keys. */
  lemma {:induction false} FromPairsCover<K(!new), V>(pairs: seq<(K, V)>, k: K)
    ensures HasKey(FromPairs(pairs), k) <==> PairKeyed(pairs, k)
  {
    if |pairs| > 0 {
      var init := pairs[..|pairs| - 1];
      FromPairsSnoc(pairs, k);
      PairKeyedSnoc(pairs, k);
      FromPairsCover(init, k);
    }
  }

  /** The index of the last pair with key `k`. */
  function LastPair<K(==), V>(pairs: seq<(K, V)>, k: K): (i: nat)
    requires PairKeyed(pairs, k)
    ensures LastPairAt(pairs, k, i)
  {
    var init := pairs[..|pairs| - 1];
    if pairs[|pairs| - 1].0 == k then |pairs| - 1
    else
      assert PairKeyed(init, k) by {
        var i0 :| 0 <= i0 < |pairs| && pairs[i0].0 == k;
        assert init[i0] == pairs[i0];
      }
      var i := LastPair(init, k);
      assert pairs[i] == init[i];
      assert forall j :: i < j < |init| ==> pairs[j] == init[j];
      i
  }

  /** The value of a key is the value of its last pair. */
  lemma {:induction false} FromPairsLastWins<K(!new), V>(pairs: seq<(K, V)>, k: K)
    requires PairKeyed(pairs, k)
    ensures Get(FromPairs(pairs), k) == Some(pairs[LastPair(pairs, k)].1)
  {
    FromPairsSnoc(pairs, k);
    if pairs[|pairs| - 1].0 != k {
      var init := pairs[..|pairs| - 1];
      assert PairKeyed(init, k) by {
        var i0 :| 0 <= i0 < |pairs| && pairs[i0].0 == k;
        assert init[i0] == pairs[i0];
      }
      FromPairsLastWins(init, k);
      var i := LastPair(init, k);
      assert LastPair(pairs, k) == i;
      assert pairs[i] == init[i];
    }
  }
}

=== FILE: draft_stats.dfy ===
/** The batch script that trims raw draft picks to a few fields and numbers
    each pick within its position. */
module DraftStats {
  import opened Wrappers
  import Text

  /** The `metadata` fields the script reads; None when a field is absent. */
  datatype PickMeta = PickMeta(position: Option<string>, firstName: Option<string>, lastName: Option<string>)

  /** A raw draft pick; a pick without metadata has every metadata field absent. */
  datatype Pick = Pick(metadata: PickMeta, playerId: Option<string>, pickNo: Option<int>)

  /** One entry of the trimmed output. */
  datatype Trimmed = Trimmed(fullName: string, playerId: Option<string>, position: string,
                             pickNo: Option<int>, pickNoByPosition: nat)

  /** The position a pick is counted under; "Unknown" when none is given. */
  function PositionOf(p: Pick): string {
    p.metadata.position.GetOr("Unknown")
  }

  /** First and last name joined by a space, surrounding whitespace removed;
      an absent part is empty. */
  function FullName(p: Pick): string {
    Text.Strip(p.metadata.firstName.GetOr("") + " " + p.metadata.lastName.GetOr(""))
  }

  /** How many of `picks` are counted under position `pos`. */
  function SamePosition(picks: seq<Pick>, pos: string): nat {
    if |picks| == 0 then 0
    else SamePosition(picks[..|picks| - 1], pos) + (if PositionOf(picks[|picks| - 1]) == pos then 1 else 0)
  }

  /** The trimmed entry of pick `k` of `picks`. */
  function EntryAt(picks: seq<Pick>, k: int): (t: Trimmed)
    requires 0 <= k < |picks|
  {
    Trimmed(FullName(picks[k]), picks[k].playerId, PositionOf(picks[k]), picks[k].pickNo,
            SamePosition(picks[..k + 1], PositionOf(picks[k])))
  }

  /** The trimmed entries of the first `n` picks. */
  function EntriesUpTo(picks: seq<Pick>, n: int): (ts: seq<Trimmed>)
    requires 0 <= n <= |picks|
    ensures |ts| == n
    ensures forall k :: 0 <= k < n ==> ts[k] == EntryAt(picks, k)
  {
    seq(n, k requires 0 <= k < n => EntryAt(picks, k))
  }

  lemma SamePositionSnoc(picks: seq<Pick>, i: int, pos: string)
    requires 0 <= i < |picks|
    ensures SamePosition(picks[..i + 1], pos) ==
              SamePosition(picks[..i], pos) + (if PositionOf(picks[i]) == pos then 1 else 0)
  {
    assert picks[..i + 1][..i] == picks[..i];
  }

  /** `counts` holds the per-position counts of `prefix`; a position not
      in `counts` has not occurred. */
  ghost predicate CountsMatch(prefix: seq<Pick>, counts: map<string, nat>) {
    forall pos :: SamePosition(prefix, pos) == if pos in counts then counts[pos] else 0
  }

  /** One step of the loop: bumping the count of pick `i`'s position keeps
      `counts` in step, and the bumped count is that pick's number. */
  lemma CountsStep(picks: seq<Pick>, i: int, counts: map<string, nat>)
    requires 0 <= i < |picks| && CountsMatch(picks[..i], counts)
    ensures var pos := PositionOf(picks[i]);
            var c := (if pos in counts then counts[pos] else 0) + 1;
            CountsMatch(picks[..i + 1], counts[pos := c]) && EntryAt(picks, i).pickNoByPosition == c
  {
    forall q ensures SamePosition(picks[..i + 1], q) ==
                     SamePosition(picks[..i], q) + (if PositionOf(picks[i]) == q then 1 else 0) {
      SamePositionSnoc(picks, i, q);
    }
  }

  /** `process_draft_picks`: one trimmed entry per pick, in order, whose
      position number counts the picks so far, this one included, that share
      its position. */
  method ProcessDraftPicks(picks: seq<Pick>) returns (trimmed: seq<Trimmed>)
    ensures |trimmed| == |picks|
    ensures forall i :: 0 <= i < |picks| ==>
              trimmed[i].position == PositionOf(picks[i])
              && trimmed[i].fullName == FullName(picks[i])
              && trimmed[i].playerId == picks[i].playerId
              && trimmed[i].pickNo == picks[i].pickNo
    ensures forall i :: 0 <= i < |picks| ==>
              trimmed[i].pickNoByPosition == SamePosition(picks[..i + 1], PositionOf(picks[i]))
  {
    var counts: map<string, nat> := map[];
    trimmed := [];
    var i := 0;
    while i < |picks|
      invariant 0 <= i <= |picks|
      invariant |trimmed| == i
      invariant trimmed == EntriesUpTo(picks, i)
      invariant CountsMatch(picks[..i], counts)
    {
      var pick := picks[i];
      var pos := PositionOf(pick);
      var c := (if pos in counts then counts[pos] else 0) + 1;
      CountsStep(picks, i, counts);
      counts := counts[pos := c];
      assert EntriesUpTo(picks, i + 1) == trimmed + [EntryAt(picks, i)];
      trimmed := trimmed + [EntryAt(picks, i)];
      i := i + 1;
    }
  }

  /** Within a position the numbers run 1, 2, 3, ... in draft order: the first
      pick of a position gets 1, a later pick of the same position a larger
      number, and every number above 1 follows the number one below it. */
  lemma {:induction false} PositionNumbersConsecutive(picks: seq<Pick>, j: int)
    requires 0 <= j < |picks|
    ensures SamePosition(picks[..j + 1], PositionOf(picks[j])) >= 1
    ensures forall i :: 0 <= i < j && PositionOf(picks[i]) == PositionOf(picks[j]) ==>
              SamePosition(picks[..i + 1], PositionOf(picks[i])) < SamePosition(picks[..j + 1], PositionOf(picks[j]))
    ensures SamePosition(picks[..j + 1], PositionOf(picks[j])) > 1 ==>
              exists i :: 0 <= i < j && PositionOf(picks[i]) == PositionOf(picks[j])
                          && SamePosition(picks[..i + 1], PositionOf(picks[i])) + 1 == SamePosition(picks[..j + 1], PositionOf(picks[j]))
  {
    var pos := PositionOf(picks[j]);
    assert picks[..j + 1][..j] == picks[..j];
    forall k | 1 <= k <= j
      ensures SamePosition(picks[..k], pos) <= SamePosition(picks[..j], pos)
    {
      SamePositionMonotone(picks, k, j, pos);
    }
    if SamePosition(picks[..j], pos) > 0 {
      var i := LastWithPosition(picks, j, pos);
      assert SamePosition(picks[..i + 1], pos) == SamePosition(picks[..j], pos);
    }
  }

  /** Counting over a longer prefix never gives less. */
  lemma {:induction false} SamePositionMonotone(picks: seq<Pick>, a: int, b: int, pos: string)
    requires 0 <= a <= b <= |picks|
    ensures SamePosition(picks[..a], pos) <= SamePosition(picks[..b], pos)
    decreases b - a
  {
    if a < b {
      assert picks[..b][..b - 1] == picks[..b - 1];
      SamePositionMonotone(picks, a, b - 1, pos);
    }
  }

  /** The last pick before `j` with position `pos`, when there is one: the
      count up to and including it is the count before `j`. */
  function LastWithPosition(picks: seq<Pick>, j: int, pos: string): (i: int)
    requires 0 <= j <= |picks| && SamePosition(picks[..j], pos) > 0
    ensures 0 <= i < j && PositionOf(picks[i]) == pos
    ensures SamePosition(picks[..i + 1], pos) == SamePosition(picks[..j], pos)
    decreases j
  {
    assert picks[..j][..j - 1] == picks[..j - 1];
    if PositionOf(picks[j - 1]) == pos then j - 1
    else LastWithPosition(picks, j - 1, pos)
  }
}

=== FILE: leaderboard.dfy ===
/** `build_leaderboard`: per-roster counters of moves, adds, drops and trades. */
module Leaderboard {
  import opened Wrappers
  import opened Dicts
  import opened Raw
  import opened Transactions
  import Sorting

  datatype Row = Row(team: string, adds: nat, drops: nat, trades: nat, totalMoves: nat)

  /** Number of entries of a player map whose roster is `rid`. */
  function CountValue(d: Dict<PlayerId, RosterId>, rid: RosterId): nat {
    Count(Values(d), rid)
  }

  /** A row after `n` listings of `rid` in `tx`. */
  function BumpN(row: Row, tx: Tx, rid: RosterId, n: nat): Row {
    Row(row.team,
        row.adds + n * CountValue(tx.adds, rid),
        row.drops + n * CountValue(tx.drops, rid),
        row.trades + (if tx.txType == "trade" then n else 0),
        row.totalMoves + n)
  }

  lemma BumpAdd(row: Row, tx: Tx, rid: RosterId, a: nat, b: nat)
    ensures BumpN(BumpN(row, tx, rid, a), tx, rid, b) == BumpN(row, tx, rid, a + b)
  {
    var ca := CountValue(tx.adds, rid);
    var cd := CountValue(tx.drops, rid);
    assert (a + b) * ca == a * ca + b * ca;
    assert (a + b) * cd == a * cd + b * cd;
  }

  /** One pass of the inner loop: `counts[rid]` bumped when `rid` is a key.
      The counters are kept aligned with the roster map: `rows[i]` belongs to
      roster `ids[i]`, and the ids are distinct, so at most one row moves. */
  function Visit(rows: seq<Row>, ids: seq<RosterId>, tx: Tx, rid: RosterId): (r: seq<Row>)
    requires |rows| == |ids|
    ensures |r| == |rows|
  {
    seq(|rows|, i requires 0 <= i < |rows| => if ids[i] == rid then BumpN(rows[i], tx, rid, 1) else rows[i])
  }

  /** The inner loop over the roster ids of one transaction. */
  function VisitAll(rows: seq<Row>, ids: seq<RosterId>, tx: Tx, rids: seq<RosterId>): (r: seq<Row>)
    requires |rows| == |ids|
    ensures |r| == |rows|
    ensures forall i :: 0 <= i < |rows| ==> r[i] == BumpN(rows[i], tx, ids[i], Count(rids, ids[i]))
    decreases |rids|
  {
    if |rids| == 0 then rows
    else
      var next := Visit(rows, ids, tx, rids[0]);
      var r := VisitAll(next, ids, tx, rids[1..]);
      forall i | 0 <= i < |rows|
        ensures r[i] == BumpN(rows[i], tx, ids[i], Count(rids, ids[i]))
      {
        var first := if rids[0] == ids[i] then 1 else 0;
        assert next[i] == BumpN(rows[i], tx, ids[i], first);
        BumpAdd(rows[i], tx, ids[i], first, Count(rids[1..], ids[i]));
      }
      r
  }

  /** The counters before any transaction: one zero row per roster. */
  function Initial(rosterToName: Dict<RosterId, string>): (r: seq<Row>)
    ensures |r| == |rosterToName|
    ensures forall i :: 0 <= i < |r| ==> r[i] == Row(rosterToName[i].1, 0, 0, 0, 0)
  {
    seq(|rosterToName|, i requires 0 <= i < |rosterToName| => Row(rosterToName[i].1, 0, 0, 0, 0))
  }

  /** The counters after the outer loop over `txs`, aligned with `rosterToName`. */
  function Tally(txs: seq<Tx>, rosterToName: Dict<RosterId, string>): (r: seq<Row>)
    ensures |r| == |rosterToName|
  {
    if |txs| == 0 then Initial(rosterToName)
    else
      var last := txs[|txs| - 1];
      VisitAll(Tally(txs[..|txs| - 1], rosterToName), Keys(rosterToName), last, last.rosterIds)
  }

  // Reference definitions of each counter.

  /** Total listings of `rid` over `txs`. */
  function Listings(txs: seq<Tx>, rid: RosterId): nat {
    if |txs| == 0 then 0
    else Listings(txs[..|txs| - 1], rid) + Count(txs[|txs| - 1].rosterIds, rid)
  }

  /** Listings of `rid` by trades. */
  function TradeListings(txs: seq<Tx>, rid: RosterId): nat {
    if |txs| == 0 then 0
    else
      var last := txs[|txs| - 1];
      TradeListings(txs[..|txs| - 1], rid) + (if last.txType == "trade" then Count(last.rosterIds, rid) else 0)
  }

  /** Players added to `rid`, once per listing of `rid` by the transaction. */
  function AddsFor(txs: seq<Tx>, rid: RosterId): nat {
    if |txs| == 0 then 0
    else
      var last := txs[|txs| - 1];
      AddsFor(txs[..|txs| - 1], rid) + Count(last.rosterIds, rid) * CountValue(last.adds, rid)
  }

  /** Players dropped by `rid`, once per listing of `rid` by the transaction. */
  function DropsFor(txs: seq<Tx>, rid: RosterId): nat {
    if |txs| == 0 then 0
    else
      var last := txs[|txs| - 1];
      DropsFor(txs[..|txs| - 1], rid) + Count(last.rosterIds, rid) * CountValue(last.drops, rid)
  }

  /** The row the source promises for roster `rid` named `name`. */
  function Expected(txs: seq<Tx>, rid: RosterId, name: string): Row {
    Row(name, AddsFor(txs, rid), DropsFor(txs, rid), TradeListings(txs, rid), Listings(txs, rid))
  }

  /** Each roster's row holds exactly the reference counts. */
  lemma {:induction false} TallyIsExpected(txs: seq<Tx>, rosterToName: Dict<RosterId, string>)
    ensures forall i :: 0 <= i < |rosterToName| ==>
              Tally(txs, rosterToName)[i] == Expected(txs, rosterToName[i].0, rosterToName[i].1)
  {
    if |txs| > 0 {
      TallyIsExpected(txs[..|txs| - 1], rosterToName);
    }
  }

  function TotalKey(r: Row): real {
    r.totalMoves as real
  }

  /** `build_leaderboard`: the rows, most moves first. */
  function Build(txs: seq<Tx>, rosterToName: Dict<RosterId, string>): (rows: seq<Row>)
    ensures |rows| == |rosterToName|
    ensures Sorting.SortedDesc(rows, TotalKey)
    ensures multiset(rows) == multiset(Tally(txs, rosterToName))
  {
    Sorting.SortDesc(Tally(txs, rosterToName), TotalKey)
  }

  /** The leaderboard has one row per roster, carrying that roster's reference counts. */
  lemma LeaderboardRows(txs: seq<Tx>, rosterToName: Dict<RosterId, string>)
    ensures multiset(Build(txs, rosterToName))
         == multiset(seq(|rosterToName|, i requires 0 <= i < |rosterToName| =>
                           Expected(txs, rosterToName[i].0, rosterToName[i].1)))
  {
    TallyIsExpected(txs, rosterToName);
    assert Tally(txs, rosterToName) == seq(|rosterToName|, i requires 0 <= i < |rosterToName| =>
                              Expected(txs, rosterToName[i].0, rosterToName[i].1));
  }

  /** Trades only count trade listings, so they never exceed total moves. */
  lemma {:induction false} TradesAtMostMoves(txs: seq<Tx>, rid: RosterId)
    ensures TradeListings(txs, rid) <= Listings(txs, rid)
  {
    if |txs| > 0 {
      TradesAtMostMoves(txs[..|txs| - 1], rid);
    }
  }

  /** Number of transactions whose roster list contains `rid`. */
  function Listing(txs: seq<Tx>, rid: RosterId): nat {
    if |txs| == 0 then 0
    else Listing(txs[..|txs| - 1], rid) + (if rid in txs[|txs| - 1].rosterIds then 1 else 0)
  }

  /** When no transaction lists a roster twice, Total Moves is the number of
      transactions listing it. */
  lemma {:induction false} ListingsCountTransactions(txs: seq<Tx>, rid: RosterId)
    requires forall i :: 0 <= i < |txs| ==> Count(txs[i].rosterIds, rid) <= 1
    ensures Listings(txs, rid) == Listing(txs, rid)
  {
    if |txs| > 0 {
      ListingsCountTransactions(txs[..|txs| - 1], rid);
    }
  }

  /** A roster's row changes only through transactions that list it. */
  lemma TallyStep(txs: seq<Tx>, tx: Tx, rosterToName: Dict<RosterId, string>, i: nat)
    requires i < |rosterToName|
    ensures Tally(txs + [tx], rosterToName)[i]
         == BumpN(Tally(txs, rosterToName)[i], tx, rosterToName[i].0, Count(tx.rosterIds, rosterToName[i].0))
  {
    assert (txs + [tx])[..|txs|] == txs;
  }

  /** A waiver claim adding one player to and dropping one from roster `a`
      gives `a` one move, one add, one drop and no trade, and leaves every
      other roster as it was. */
  lemma {:induction false} WaiverClaimExample(txs: seq<Tx>, rosterToName: Dict<RosterId, string>,
                           i: nat, added: PlayerId, dropped: PlayerId, tx: Tx)
    requires i < |rosterToName|
    requires tx.txType == "waiver" && tx.rosterIds == [rosterToName[i].0]
    requires tx.adds == [(added, rosterToName[i].0)] && tx.drops == [(dropped, rosterToName[i].0)]
    ensures var before := Tally(txs, rosterToName)[i];
            Tally(txs + [tx], rosterToName)[i]
            == Row(before.team, before.adds + 1, before.drops + 1, before.trades, before.totalMoves + 1)
    ensures forall j :: 0 <= j < |rosterToName| && rosterToName[j].0 != rosterToName[i].0 ==>
              Tally(txs + [tx], rosterToName)[j] == Tally(txs, rosterToName)[j]
  {
    var a := rosterToName[i].0;
    TallyStep(txs, tx, rosterToName, i);
    assert Values(tx.adds) == [a];
    assert Values(tx.drops) == [a];
    assert Count([a], a) == 1;
    forall j | 0 <= j < |rosterToName| && rosterToName[j].0 != a
      ensures Tally(txs + [tx], rosterToName)[j] == Tally(txs, rosterToName)[j]
    {
      TallyStep(txs, tx, rosterToName, j);
      assert Count([a], rosterToName[j].0) == 0;
    }
  }

  /** A two-for-two trade between rosters `i` and `j` gives each of them one
      move, one trade, one add and one drop. */
  lemma {:induction false} TradeExample(txs: seq<Tx>, rosterToName: Dict<RosterId, string>,
                     i: nat, j: nat, p1: PlayerId, p2: PlayerId, tx: Tx)
    requires i < |rosterToName| && j < |rosterToName| && rosterToName[i].0 != rosterToName[j].0
    requires tx.txType == "trade" && tx.rosterIds == [rosterToName[i].0, rosterToName[j].0]
    requires tx.adds == [(p1, rosterToName[i].0), (p2, rosterToName[j].0)]
    requires tx.drops == [(p1, rosterToName[j].0), (p2, rosterToName[i].0)]
    ensures forall k :: k == i || k == j ==>
              var before := Tally(txs, rosterToName)[k];
              Tally(txs + [tx], rosterToName)[k]
              == Row(before.team, before.adds + 1, before.drops + 1, before.trades + 1, before.totalMoves + 1)
  {
    var a, b := rosterToName[i].0, rosterToName[j].0;
    TallyStep(txs, tx, rosterToName, i);
    TallyStep(txs, tx, rosterToName, j);
    assert Values(tx.adds) == [a, b];
    assert Values(tx.drops) == [b, a];
    assert Count([a, b], a) == 1 && Count([a, b], b) == 1;
    assert Count([b, a], a) == 1 && Count([b, a], b) == 1;
  }
}

=== FILE: rankings.dfy ===
/** The Rankings page: matching drafted players to NBA game logs, building a
    ranking row per matched player, ranking rows by average weekly best, and
    the derived Value Surplus, Log ROI sign and per-manager row counts. */
module Rankings {
  import opened Wrappers
  import opened Dicts
  import opened Sorting
  import opened Scoring

  /** One drafted player as the page reads it from the draft data frame; the
      manager is missing when the picking user is not a league member. */
  datatype DraftPick = DraftPick(playerName: string, position: string, pickNo: int, manager: Option<string>)

  predicate NamedIn(ps: seq<DraftPick>, n: string) {
    exists i :: 0 <= i < |ps| && ps[i].playerName == n
  }

  predicate DistinctNames(ps: seq<DraftPick>) {
    forall i, j :: 0 <= i < j < |ps| ==> ps[i].playerName != ps[j].playerName
  }

  lemma NamedInSnoc(ps: seq<DraftPick>, p: DraftPick, n: string)
    ensures NamedIn(ps + [p], n) <==> NamedIn(ps, n) || p.playerName == n
  {
    if NamedIn(ps + [p], n) && p.playerName != n {
      var i :| 0 <= i < |ps + [p]| && (ps + [p])[i].playerName == n;
      assert ps[i].playerName == n;
    }
    if NamedIn(ps, n) {
      var i :| 0 <= i < |ps| && ps[i].playerName == n;
      assert (ps + [p])[i] == ps[i];
    }
    assert (ps + [p])[|ps|] == p;
  }

  /** `drop_duplicates("player_name")`: the first pick of every name, in draft order. */
  function Dedupe(ps: seq<DraftPick>): (r: seq<DraftPick>)
    ensures DistinctNames(r)
    ensures forall n :: NamedIn(r, n) <==> NamedIn(ps, n)
    ensures forall i :: 0 <= i < |r| ==>
              exists j :: 0 <= j < |ps| && ps[j] == r[i] && !NamedIn(ps[..j], r[i].playerName)
  {
    if |ps| == 0 then []
    else
      var init := ps[..|ps| - 1];
      var prev := Dedupe(init);
      var p := ps[|ps| - 1];
      assert forall j :: 0 <= j < |init| ==> init[..j] == ps[..j];
      assert ps == init + [p];
      assert forall n :: NamedIn(ps, n) <==> NamedIn(init, n) || p.playerName == n by {
        forall n { NamedInSnoc(init, p, n); }
      }
      if NamedIn(prev, p.playerName) then prev
      else
        assert forall n :: NamedIn(prev + [p], n) <==> NamedIn(prev, n) || p.playerName == n by {
          forall n { NamedInSnoc(prev, p, n); }
        }
        prev + [p]
  }

  /** Some entry of the plain index has a name that normalises to `n`. */
  predicate NormalizesTo(m: Dict<string, int>, normalize: string -> string, n: string) {
    exists i :: 0 <= i < |m| && normalize(m[i].0) == n
  }

  /** The plain index's entries with their names normalised, in order. */
  function Renamed(m: Dict<string, int>, normalize: string -> string): (ps: seq<(string, int)>)
    ensures |ps| == |m|
    ensures forall i :: 0 <= i < |m| ==> ps[i] == (normalize(m[i].0), m[i].1)
  {
    seq(|m|, i requires 0 <= i < |m| => (normalize(m[i].0), m[i].1))
  }

  /** `nba_map_norm`: the name index re-keyed by the accent-stripping
      normaliser; when two names normalise alike the later entry wins. */
  function NormIndex(m: Dict<string, int>, normalize: string -> string): (r: Dict<string, int>)
    ensures DistinctKeys(r)
    ensures forall n :: Get(r, n).Some? <==> NormalizesTo(m, normalize, n)
  {
    var ps := Renamed(m, normalize);
    var r := FromPairs(ps);
    assert forall n :: Get(r, n).Some? <==> NormalizesTo(m, normalize, n) by {
      forall n ensures Get(r, n).Some? <==> NormalizesTo(m, normalize, n) {
        FromPairsCover(ps, n);
        if NormalizesTo(m, normalize, n) {
          var i :| 0 <= i < |m| && normalize(m[i].0) == n;
          assert ps[i].0 == n;
        }
        if PairKeyed(ps, n) {
          var i :| 0 <= i < |ps| && ps[i].0 == n;
          assert normalize(m[i].0) == n;
        }
      }
    }
    r
  }

  /** Entry `i` is the last entry whose name normalises to `n`. */
  predicate LastNormalizingTo(m: Dict<string, int>, normalize: string -> string, n: string, i: int) {
    0 <= i < |m| && normalize(m[i].0) == n && forall j :: i < j < |m| ==> normalize(m[j].0) != n
  }

  /** The id stored under a normalised name is the id of the LAST entry of the
      plain index whose name normalises to it. */
  lemma NormIndexLastWins(m: Dict<string, int>, normalize: string -> string, n: string)
    requires NormalizesTo(m, normalize, n)
    ensures exists i :: LastNormalizingTo(m, normalize, n, i) && Get(NormIndex(m, normalize), n) == Some(m[i].1)
  {
    var ps := Renamed(m, normalize);
    var i0 :| 0 <= i0 < |m| && normalize(m[i0].0) == n;
    assert ps[i0].0 == n;
    FromPairsLastWins(ps, n);
    var i := LastPair(ps, n);
    assert NormIndex(m, normalize) == FromPairs(ps);
    assert LastNormalizingTo(m, normalize, n, i);
    assert Get(NormIndex(m, normalize), n) == Some(m[i].1);
  }

  /** The id lookup: the normalised index first, then the lower-cased name. Python's `or`
      falls through on a missing key and on the falsy id 0 alike. */
  function LookupId(name: string, normIndex: Dict<string, int>, plainIndex: Dict<string, int>,
                    normalize: string -> string, lower: string -> string): (r: Option<int>)
    ensures r.None? <==>
              (Get(normIndex, normalize(name)).None? || Get(normIndex, normalize(name)) == Some(0))
              && !HasKey(plainIndex, lower(name))
    ensures r.Some? && r.value != 0 ==>
              r == Get(normIndex, normalize(name)) || r == Get(plainIndex, lower(name))
  {
    var byNorm := Get(normIndex, normalize(name));
    if byNorm.Some? && byNorm.value != 0 then byNorm else Get(plainIndex, lower(name))
  }

  /** The accent-stripped index is consulted first: when it has a usable id,
      the plain index is never looked at, whatever it holds. */
  lemma NormalizedKeyWins(name: string, normIndex: Dict<string, int>, plainIndex: Dict<string, int>,
                          normalize: string -> string, lower: string -> string, id: int)
    requires Get(normIndex, normalize(name)) == Some(id) && id != 0
    ensures LookupId(name, normIndex, plainIndex, normalize, lower) == Some(id)
  {
  }

  /** One row of the player's game log: the week key pandas derives from the
      game date, and the box score. */
  datatype GameLine = GameLine(week: WeekKey, box: BoxScore)

  function Scores(log: seq<GameLine>): (s: seq<int>)
    ensures |s| == |log|
    ensures forall i :: 0 <= i < |log| ==> s[i] == ScoreHalfPoints(log[i].box)
  {
    seq(|log|, i requires 0 <= i < |log| => ScoreHalfPoints(log[i].box))
  }

  function Games(log: seq<GameLine>): (g: seq<Game>)
    ensures |g| == |log|
    ensures forall i :: 0 <= i < |log| ==> g[i] == Game(log[i].week, ScoreHalfPoints(log[i].box))
  {
    seq(|log|, i requires 0 <= i < |log| => Game(log[i].week, ScoreHalfPoints(log[i].box)))
  }

  function WeeklyBests(log: seq<GameLine>): (s: seq<int>)
    ensures |s| == |BestPerWeek(Games(log))|
    ensures forall i :: 0 <= i < |s| ==> s[i] == BestPerWeek(Games(log))[i].1
  {
    var rows := BestPerWeek(Games(log));
    seq(|rows|, i requires 0 <= i < |rows| => rows[i].1)
  }

  function Sum(s: seq<int>): int {
    if |s| == 0 then 0 else Sum(s[..|s| - 1]) + s[|s| - 1]
  }

  function MaxOf(s: seq<int>): (m: int)
    requires |s| > 0
    ensures m in s
    ensures forall i :: 0 <= i < |s| ==> s[i] <= m
  {
    if |s| == 1 then s[0]
    else Max(MaxOf(s[..|s| - 1]), s[|s| - 1])
  }

  /** A mean of half-point scores, in points. */
  function MeanPoints(s: seq<int>): real
    requires |s| > 0
  {
    (Sum(s) as real) / ((2 * |s|) as real)
  }

  /** A non-empty log has at least one week. */
  lemma NonEmptyLogHasWeek(log: seq<GameLine>)
    requires |log| > 0
    ensures |WeeklyBests(log)| > 0
  {
    var games := Games(log);
    BestPerWeekIsWeeklyMaximum(games, games[0].week);
  }

  /** One entry of `ranking_rows`. */
  datatype RankingRow = RankingRow(player: string, position: string, pickNo: int, manager: Option<string>,
                                   avgBestPerWeek: real, seasonAvg: real, bestGame: real, gamesPlayed: nat)

  /** The row appended for a matched player and their game log. */
  function RowFor(p: DraftPick, log: seq<GameLine>): (r: RankingRow)
    ensures r.player == p.playerName && r.position == p.position
    ensures r.pickNo == p.pickNo && r.manager == p.manager
    ensures r.gamesPlayed == |log|
    ensures |log| == 0 ==> r.avgBestPerWeek == 0.0 && r.seasonAvg == 0.0 && r.bestGame == 0.0
    ensures |log| > 0 ==> r.bestGame * 2.0 == MaxOf(Scores(log)) as real
  {
    if |log| == 0 then RankingRow(p.playerName, p.position, p.pickNo, p.manager, 0.0, 0.0, 0.0, 0)
    else
      NonEmptyLogHasWeek(log);
      RankingRow(p.playerName, p.position, p.pickNo, p.manager,
                 MeanPoints(WeeklyBests(log)), MeanPoints(Scores(log)),
                 (MaxOf(Scores(log)) as real) / 2.0, |log|)
  }

  lemma {:induction false} SumAtMost(s: seq<int>, m: int)
    requires forall i :: 0 <= i < |s| ==> s[i] <= m
    ensures Sum(s) <= |s| * m
  {
    if |s| > 0 {
      SumAtMost(s[..|s| - 1], m);
    }
  }

  lemma MeanAtMost(s: seq<int>, m: int)
    requires |s| > 0
    requires forall i :: 0 <= i < |s| ==> s[i] <= m
    ensures MeanPoints(s) <= (m as real) / 2.0
  {
    SumAtMost(s, m);
    var n := (2 * |s|) as real;
    assert (Sum(s) as real) <= (|s| as real) * (m as real);
    assert (Sum(s) as real) / n <= ((|s| as real) * (m as real)) / n;
  }

  /** Neither average of a player exceeds their best game: every weekly best
      is one of the season's game scores. */
  lemma {:induction false} AveragesAtMostBest(p: DraftPick, log: seq<GameLine>)
    requires |log| > 0
    ensures RowFor(p, log).avgBestPerWeek <= RowFor(p, log).bestGame
    ensures RowFor(p, log).seasonAvg <= RowFor(p, log).bestGame
  {
    var scores := Scores(log);
    var games := Games(log);
    var m := MaxOf(scores);
    NonEmptyLogHasWeek(log);
    var w := WeeklyBests(log);
    forall i | 0 <= i < |w|
      ensures w[i] <= m
    {
      var k := BestPerWeek(games)[i].0;
      BestPerWeekIsWeeklyMaximum(games, k);
      var j :| 0 <= j < |games| && games[j].week == k && games[j].score == w[i];
      assert scores[j] == w[i];
    }
    MeanAtMost(w, m);
    MeanAtMost(scores, m);
  }

  /** Everything the per-player loop consults besides the player: the two name
      indexes, the two name transformations, and the game logs that could be
      fetched (an id missing from `logs` stands for a fetch that raised). */
  datatype Sources = Sources(normIndex: Dict<string, int>, plainIndex: Dict<string, int>,
                             normalize: string -> string, lower: string -> string,
                             logs: map<int, seq<GameLine>>)

  function IdOf(p: DraftPick, src: Sources): Option<int> {
    LookupId(p.playerName, src.normIndex, src.plainIndex, src.normalize, src.lower)
  }

  /** The outcome for one de-duplicated player: not found when neither index
      yields an id or when fetching the log fails, otherwise the ranking row
      built from the fetched log. */
  function Evaluate(p: DraftPick, src: Sources): (r: Result<RankingRow, string>)
    ensures r.Failure? <==> IdOf(p, src).None? || IdOf(p, src).value !in src.logs
    ensures r.Failure? ==> r.error == p.playerName
    ensures r.Success? ==> r.value.player == p.playerName && r.value == RowFor(p, src.logs[IdOf(p, src).value])
  {
    var id := IdOf(p, src);
    if id.None? || id.value !in src.logs then Failure(p.playerName)
    else Success(RowFor(p, src.logs[id.value]))
  }

  datatype Partitioned = Partitioned(rows: seq<RankingRow>, notFound: seq<string>)

  /** Each player's outcome, in draft order. */
  function Outcomes(ps: seq<DraftPick>, src: Sources): (os: seq<Result<RankingRow, string>>)
    ensures |os| == |ps|
    ensures forall i :: 0 <= i < |ps| ==> os[i] == Evaluate(ps[i], src)
  {
    seq(|ps|, i requires 0 <= i < |ps| => Evaluate(ps[i], src))
  }

  /** The per-player loop: ranked rows and not-found names, both in draft order. */
  function Partition(ps: seq<DraftPick>, src: Sources): (r: Partitioned)
    ensures |r.rows| + |r.notFound| == |ps|
  {
    if |ps| == 0 then Partitioned([], [])
    else
      var prev := Partition(ps[..|ps| - 1], src);
      var e := Evaluate(ps[|ps| - 1], src);
      if e.Success? then Partitioned(prev.rows + [e.value], prev.notFound)
      else Partitioned(prev.rows, prev.notFound + [e.error])
  }

  /** Every row is some player's successful outcome and every not-found name
      some player's failed one. */
  lemma {:induction false} PartitionSound(ps: seq<DraftPick>, src: Sources)
    ensures forall row :: row in Partition(ps, src).rows ==> Success(row) in Outcomes(ps, src)
    ensures forall n :: n in Partition(ps, src).notFound ==> Failure(n) in Outcomes(ps, src)
  {
    if |ps| > 0 {
      var init := ps[..|ps| - 1];
      PartitionSound(init, src);
      assert Outcomes(ps, src) == Outcomes(init, src) + [Evaluate(ps[|ps| - 1], src)];
    }
  }

  /** Every player's outcome is recorded: a ranked player's row is among the
      rows, an unmatched player's name among the not-found names. */
  lemma {:induction false} PartitionComplete(ps: seq<DraftPick>, src: Sources, i: int)
    requires 0 <= i < |ps|
    ensures Evaluate(ps[i], src).Success? ==> Evaluate(ps[i], src).value in Partition(ps, src).rows
    ensures Evaluate(ps[i], src).Failure? ==> ps[i].playerName in Partition(ps, src).notFound
  {
    if i < |ps| - 1 {
      var init := ps[..|ps| - 1];
      assert init[i] == ps[i];
      PartitionComplete(init, src, i);
    }
  }

  /** No name appears twice among the rows, nor both as a row and as not found. */
  predicate NoNameTwice(r: Partitioned) {
    && (forall k, l :: 0 <= k < l < |r.rows| ==> r.rows[k].player != r.rows[l].player)
    && (forall k, n :: 0 <= k < |r.rows| && n in r.notFound ==> r.rows[k].player != n)
  }

  /** A name no player carries appears nowhere in the outcome. */
  lemma {:induction false} PartitionAvoids(ps: seq<DraftPick>, src: Sources, n: string)
    requires forall i :: 0 <= i < |ps| ==> ps[i].playerName != n
    ensures forall row :: row in Partition(ps, src).rows ==> row.player != n
    ensures n !in Partition(ps, src).notFound
  {
    if |ps| > 0 {
      var init := ps[..|ps| - 1];
      assert forall i :: 0 <= i < |init| ==> init[i] == ps[i];
      PartitionAvoids(init, src, n);
    }
  }

  /** With de-duplicated names every player lands in exactly one of the two
      lists, and no name is ranked twice. */
  lemma {:induction false} PartitionExclusive(ps: seq<DraftPick>, src: Sources)
    requires DistinctNames(ps)
    ensures NoNameTwice(Partition(ps, src))
  {
    if |ps| > 0 {
      var init := ps[..|ps| - 1];
      var p := ps[|ps| - 1];
      assert forall i :: 0 <= i < |init| ==> init[i] == ps[i];
      PartitionExclusive(init, src);
      PartitionAvoids(init, src, p.playerName);
      var prev := Partition(init, src);
      var e := Evaluate(p, src);
      var r := Partition(ps, src);
      if e.Success? {
        assert r == Partitioned(prev.rows + [e.value], prev.notFound);
        assert forall k :: 0 <= k < |prev.rows| ==> prev.rows[k] in prev.rows;
      } else {
        assert r == Partitioned(prev.rows, prev.notFound + [e.error]);
        assert forall k :: 0 <= k < |prev.rows| ==> prev.rows[k] in prev.rows;
      }
    }
  }

  /** The sign of `ln(pick_no / current_rank)`, or the error Python raises. */
  datatype Sign = Positive | Zero | Negative
  datatype RoiError = ZeroDivision | MathDomain

  /** Log ROI's sign read off the ratio: the logarithm is positive, zero or
      negative as the ratio is above, at or below 1, and undefined when the
      ratio is not positive. */
  function LogRoiSign(pick: int, rank: int): (r: Result<Sign, RoiError>)
    ensures rank == 0 <==> r == Failure(ZeroDivision)
    ensures rank != 0 ==>
              (r == Failure(MathDomain) <==> (pick as real) / (rank as real) <= 0.0)
              && (r == Success(Positive) <==> (pick as real) / (rank as real) > 1.0)
              && (r == Success(Zero) <==> (pick as real) / (rank as real) == 1.0)
              && (r == Success(Negative) <==> 0.0 < (pick as real) / (rank as real) < 1.0)
  {
    if rank == 0 then Failure(ZeroDivision)
    else
      RatioFacts(pick as real, rank as real);
      if (pick <= 0 && rank > 0) || (pick >= 0 && rank < 0) then Failure(MathDomain)
      else if (rank > 0 && pick > rank) || (rank < 0 && pick < rank) then Success(Positive)
      else if pick == rank then Success(Zero)
      else Success(Negative)
  }

  lemma RatioFacts(p: real, q: real)
    requires q != 0.0
    ensures p / q <= 0.0 <==> (p <= 0.0 && q > 0.0) || (p >= 0.0 && q < 0.0)
    ensures p / q > 1.0 <==> (q > 0.0 && p > q) || (q < 0.0 && p < q)
    ensures p / q == 1.0 <==> p == q
  {
    var x := p / q;
    assert p == x * q;
    if q > 0.0 {
      assert x > 1.0 ==> x * q > q;
      assert x <= 0.0 ==> x * q <= 0.0;
      assert x < 1.0 ==> x * q < q;
      assert x <= 1.0 ==> x * q <= q;
    } else {
      assert x > 1.0 ==> x * q < q;
      assert x <= 0.0 ==> x * q >= 0.0;
      assert x < 1.0 ==> x * q > q;
      assert x <= 1.0 ==> x * q >= q;
    }
  }

  /** With a positive rank, as every performance rank is, Log ROI is positive
      exactly for a player drafted later than they rank, negative exactly for
      one drafted earlier, and undefined for a non-positive pick number. */
  lemma LogRoiSteals(pick: int, rank: int)
    requires rank >= 1
    ensures LogRoiSign(pick, rank) == Success(Positive) <==> pick > rank
    ensures LogRoiSign(pick, rank) == Success(Negative) <==> 0 < pick < rank
    ensures LogRoiSign(pick, rank) == Success(Zero) <==> pick == rank
    ensures LogRoiSign(pick, rank).Failure? <==> pick <= 0
  {
  }

  /** One row of `rankings_df` after the derived columns are added. The
      expected draft value is a parameter: its exponential is not modelled. */
  datatype RankedRow = RankedRow(row: RankingRow, rank: nat, valueSurplus: real, logRoi: Result<Sign, RoiError>)

  /** Value Surplus: the sentinel -100 for a player without games, otherwise
      the average weekly best minus the expected draft value. */
  function ValueSurplus(row: RankingRow, expectedValue: int -> real): (v: real)
    ensures row.gamesPlayed == 0 ==> v == -100.0
    ensures row.gamesPlayed != 0 ==> v + expectedValue(row.pickNo) == row.avgBestPerWeek
  {
    if row.gamesPlayed == 0 then -100.0 else row.avgBestPerWeek - expectedValue(row.pickNo)
  }

  function AvgBestKey(r: RankingRow): real {
    r.avgBestPerWeek
  }

  function RowsOf(ranked: seq<RankedRow>): (rows: seq<RankingRow>)
    ensures |rows| == |ranked|
    ensures forall i :: 0 <= i < |ranked| ==> rows[i] == ranked[i].row
  {
    seq(|ranked|, i requires 0 <= i < |ranked| => ranked[i].row)
  }

  /** `sort_values("Avg Best Gm/Wk", ascending=False)`, the 1-based index as
      Performance Rank, then Value Surplus and Log ROI per row. */
  function Rank(rows: seq<RankingRow>, expectedValue: int -> real): (r: seq<RankedRow>)
    ensures multiset(RowsOf(r)) == multiset(rows)
    ensures forall i, j :: 0 <= i < j < |r| ==> r[i].row.avgBestPerWeek >= r[j].row.avgBestPerWeek
    ensures forall i :: 0 <= i < |r| ==> r[i].rank == i + 1
    ensures forall i :: 0 <= i < |r| ==> r[i].valueSurplus == ValueSurplus(r[i].row, expectedValue)
    ensures forall i :: 0 <= i < |r| ==> r[i].logRoi == LogRoiSign(r[i].row.pickNo, r[i].rank)
  {
    var sorted := SortDesc(rows, AvgBestKey);
    var r := seq(|sorted|, i requires 0 <= i < |sorted| =>
               RankedRow(sorted[i], i + 1, ValueSurplus(sorted[i], expectedValue), LogRoiSign(sorted[i].pickNo, i + 1)));
    assert RowsOf(r) == sorted;
    r
  }

  /** The ranks are exactly 1..N: each of them occurs, on one row. */
  lemma RanksAreOneToN(rows: seq<RankingRow>, expectedValue: int -> real, k: int)
    requires 1 <= k <= |rows|
    ensures exists i :: 0 <= i < |Rank(rows, expectedValue)| && Rank(rows, expectedValue)[i].rank == k
    ensures forall i, j :: 0 <= i < j < |Rank(rows, expectedValue)| ==>
              Rank(rows, expectedValue)[i].rank != Rank(rows, expectedValue)[j].rank
  {
    var r := Rank(rows, expectedValue);
    assert |RowsOf(r)| == |rows| by {
      assert |multiset(RowsOf(r))| == |multiset(rows)|;
    }
    assert r[k - 1].rank == k;
  }

  /** A ranked player without games carries the -100 surplus whatever their
      pick; Log ROI never divides by zero since every rank is positive. */
  lemma ZeroGamesSurplus(rows: seq<RankingRow>, expectedValue: int -> real, i: int)
    requires 0 <= i < |Rank(rows, expectedValue)|
    ensures Rank(rows, expectedValue)[i].row.gamesPlayed == 0 ==> Rank(rows, expectedValue)[i].valueSurplus == -100.0
    ensures Rank(rows, expectedValue)[i].logRoi != Failure(ZeroDivision)
  {
  }

  /** Rows whose manager is `m`. */
  function ManagedBy(rs: seq<RankedRow>, m: string): nat {
    if |rs| == 0 then 0
    else ManagedBy(rs[..|rs| - 1], m) + (if rs[|rs| - 1].row.manager == Some(m) then 1 else 0)
  }

  /** Rows with a known manager; `groupby` drops the rows whose manager is missing. */
  function WithManager(rs: seq<RankedRow>): nat {
    if |rs| == 0 then 0
    else WithManager(rs[..|rs| - 1]) + (if rs[|rs| - 1].row.manager.Some? then 1 else 0)
  }

  /** The "Players Tracked" column of the manager leaderboard, one count per
      manager; the order of the leaderboard's rows is not modelled. */
  function ManagerCounts(rs: seq<RankedRow>): (d: Dict<string, nat>)
    ensures DistinctKeys(d)
  {
    if |rs| == 0 then []
    else
      var prev := ManagerCounts(rs[..|rs| - 1]);
      var mgr := rs[|rs| - 1].row.manager;
      if mgr.None? then prev
      else Put(prev, mgr.value, Get(prev, mgr.value).GetOr(0) + 1)
  }

  /** The counts add up to the number of ranked players with a manager. */
  lemma {:induction false} ManagerCountsSum(rs: seq<RankedRow>)
    ensures SumValues(ManagerCounts(rs)) == WithManager(rs)
  {
    if |rs| > 0 {
      var prev := ManagerCounts(rs[..|rs| - 1]);
      var mgr := rs[|rs| - 1].row.manager;
      ManagerCountsSum(rs[..|rs| - 1]);
      if mgr.Some? {
        assert ManagerCounts(rs) == Put(prev, mgr.value, Get(prev, mgr.value).GetOr(0) + 1);
        SumValuesPut(prev, mgr.value, Get(prev, mgr.value).GetOr(0) + 1);
      } else {
        assert ManagerCounts(rs) == prev;
      }
    }
  }

  /** A manager's count is the number of ranked players they manage; a
      manager with no ranked player has no row. */
  lemma {:induction false} ManagerCountsTally(rs: seq<RankedRow>, m: string)
    ensures Get(ManagerCounts(rs), m).GetOr(0) == ManagedBy(rs, m)
    ensures HasKey(ManagerCounts(rs), m) <==> ManagedBy(rs, m) > 0
  {
    if |rs| > 0 {
      ManagerCountsTally(rs[..|rs| - 1], m);
    }
  }

  /** When every ranked player has a manager, the per-manager counts add up
      to the number of ranked players. */
  lemma {:induction false} ManagerCountsCoverAll(rs: seq<RankedRow>)
    requires forall i :: 0 <= i < |rs| ==> rs[i].row.manager.Some?
    ensures SumValues(ManagerCounts(rs)) == |rs|
  {
    ManagerCountsSum(rs);
    AllManaged(rs);
  }

  lemma {:induction false} AllManaged(rs: seq<RankedRow>)
    requires forall i :: 0 <= i < |rs| ==> rs[i].row.manager.Some?
    ensures WithManager(rs) == |rs|
  {
    if |rs| > 0 {
      AllManaged(rs[..|rs| - 1]);
    }
  }
}

=== FILE: raw.dfy ===
/** Records as the league API delivers them, before any cleaning. */
module Raw {
  import opened Wrappers
  import opened Dicts

  type PlayerId = string
  type RosterId = int

  /** One raw transaction. `adds` maps player to acquiring roster and `drops`
      player to releasing roster; an absent or null map is the empty map, as
      every reader applies `or {}`. `rosterIds` is None when the field is
      absent or null. `waiverSeq` is `settings.seq`. */
  datatype RawTx = RawTx(
    transactionId: Option<string>,
    leg: Option<int>,
    status: Option<string>,
    txType: Option<string>,
    created: Option<int>,
    adds: Dict<PlayerId, RosterId>,
    drops: Dict<PlayerId, RosterId>,
    rosterIds: Option<seq<RosterId>>,
    waiverSeq: Option<int>)

  /** "complete" is the only status that takes part in statistics. */
  predicate IsComplete(t: RawTx) {
    t.status == Some("complete")
  }

  /** A league member: user id and display name. */
  datatype Member = Member(userId: string, displayName: string)

  /** A roster: its id, its owner's user id and its `metadata.record` string. */
  datatype Roster = Roster(rosterId: RosterId, ownerId: Option<string>, record: Option<string>)

  /** The user-id to display-name map: when two members share a user id, the later one wins. */
  function UserNames(members: seq<Member>): (d: Dict<string, string>)
    ensures DistinctKeys(d)
    ensures forall u :: HasKey(d, u) <==> exists i :: 0 <= i < |members| && members[i].userId == u
  {
    if |members| == 0 then []
    else
      var m := members[|members| - 1];
      var prev := UserNames(members[..|members| - 1]);
      var d := Put(prev, m.userId, m.displayName);
      assert forall u :: HasKey(d, u) <==> exists i :: 0 <= i < |members| && members[i].userId == u by {
        forall u ensures HasKey(d, u) <==> exists i :: 0 <= i < |members| && members[i].userId == u {
          assert Get(d, u).Some? <==> (u == m.userId || Get(prev, u).Some?);
          if HasKey(prev, u) {
            var i :| 0 <= i < |members| - 1 && members[..|members| - 1][i].userId == u;
            assert members[i].userId == u;
          }
          if exists i :: 0 <= i < |members| && members[i].userId == u {
            var i :| 0 <= i < |members| && members[i].userId == u;
            if i < |members| - 1 {
              assert members[..|members| - 1][i].userId == u;
            }
          }
        }
      }
      d
  }

  /** The name a user id ends up with is the display name of the last member
      holding that id. */
  lemma {:induction false} UserNamesLastWins(members: seq<Member>, i: nat)
    requires i < |members|
    requires forall j :: i < j < |members| ==> members[j].userId != members[i].userId
    ensures Get(UserNames(members), members[i].userId) == Some(members[i].displayName)
  {
    var m := members[|members| - 1];
    var init := members[..|members| - 1];
    if i < |members| - 1 {
      assert init[i] == members[i];
      forall j | i < j < |init| ensures init[j].userId != init[i].userId {
        assert init[j] == members[j];
      }
      UserNamesLastWins(init, i);
      assert m.userId != members[i].userId;
    }
  }
}

=== FILE: scoring.dfy ===
/** The fantasy scoring formula and the best-game-per-week reduction of the
    Rankings page. Scores are integers counted in half-points: every weight
    is a multiple of 0.5 and every bonus a whole number of points. */
module Scoring {
  import opened Wrappers

  /** One box-score line. PTS, REB, AST, STL and BLK are read unconditionally
      by the bonus rules; TOV and FG3M may be missing and then count zero. */
  datatype BoxScore = BoxScore(pts: int, reb: int, ast: int, stl: int, blk: int,
                               tov: Option<int>, fg3m: Option<int>)

  /** The weighted sum in half-points: 0.5 PTS + 1 REB + 1 AST + 2 STL + 2 BLK
      - 1 TOV + 0.5 FG3M, a missing column contributing nothing. */
  function LinearHalfPoints(b: BoxScore): int {
    b.pts + 2 * b.reb + 2 * b.ast + 4 * b.stl + 4 * b.blk - 2 * b.tov.GetOr(0) + b.fg3m.GetOr(0)
  }

  /** How many of PTS, REB, AST, STL, BLK reach 10. */
  function CategoriesAtTen(b: BoxScore): (n: nat)
    ensures n <= 5
  {
    (if b.pts >= 10 then 1 else 0) + (if b.reb >= 10 then 1 else 0) + (if b.ast >= 10 then 1 else 0)
    + (if b.stl >= 10 then 1 else 0) + (if b.blk >= 10 then 1 else 0)
  }

  /** Double/triple-double bonus in half-points: the source adds
      `(n >= 3) * 2.0` and `(n == 2) * 1.0`; at most one of them is non-zero. */
  function DoubleBonusHalf(b: BoxScore): (r: nat)
    ensures CategoriesAtTen(b) >= 3 <==> r == 4
    ensures CategoriesAtTen(b) == 2 <==> r == 2
    ensures CategoriesAtTen(b) < 2 <==> r == 0
  {
    var n := CategoriesAtTen(b);
    (if n >= 3 then 4 else 0) + (if n == 2 then 2 else 0)
  }

  /** The 40- and 50-point bonuses in half-points; a 50-point game earns both. */
  function PointsBonusHalf(pts: int): (r: nat)
    ensures pts < 40 ==> r == 0
    ensures 40 <= pts < 50 ==> r == 4
    ensures pts >= 50 ==> r == 8
  {
    (if pts >= 40 then 4 else 0) + (if pts >= 50 then 4 else 0)
  }

  /** `calc_fantasy_score` for one game, in half-points. */
  function ScoreHalfPoints(b: BoxScore): (r: int)
    ensures b.tov.Some? && b.fg3m.Some? ==>
              r == b.pts + 2 * b.reb + 2 * b.ast + 4 * b.stl + 4 * b.blk - 2 * b.tov.value + b.fg3m.value
                   + DoubleBonusHalf(b) + PointsBonusHalf(b.pts)
    ensures LinearHalfPoints(b) <= r <= LinearHalfPoints(b) + 12
  {
    LinearHalfPoints(b) + DoubleBonusHalf(b) + PointsBonusHalf(b.pts)
  }

  /** The double/triple-double tier is independent of the points bonus: the
      two tiers never stack, and the points bonus adds on top of either. */
  lemma BonusesIndependent(b: BoxScore)
    ensures DoubleBonusHalf(b) in {0, 2, 4}
    ensures ScoreHalfPoints(b) - LinearHalfPoints(b) == DoubleBonusHalf(b) + PointsBonusHalf(b.pts)
  {
  }

  /** More points never lower the score: every term grows with PTS. */
  lemma {:induction false} ScoreMonotoneInPoints(b: BoxScore, more: int)
    requires more >= b.pts
    ensures ScoreHalfPoints(b.(pts := more)) >= ScoreHalfPoints(b)
  {
    var b' := b.(pts := more);
    assert CategoriesAtTen(b') >= CategoriesAtTen(b);
    if CategoriesAtTen(b) == 2 && CategoriesAtTen(b') == 3 {
      assert more - b.pts >= 0;
    }
  }

  /** More turnovers never raise the score. */
  lemma {:induction false} ScoreAntitoneInTurnovers(b: BoxScore, tov: int)
    requires b.tov.Some? && tov >= b.tov.value
    ensures ScoreHalfPoints(b.(tov := Some(tov))) <= ScoreHalfPoints(b)
  {
  }

  /** 20 PTS, 5 REB, 3 AST, 2 FG3M and nothing else scores 19.0. */
  lemma LinearExample()
    ensures ScoreHalfPoints(BoxScore(20, 5, 3, 0, 0, Some(0), Some(2))) == 38
  {
  }

  /** 10/10/10 earns the triple-double bonus only: 5 + 10 + 10 + 2 = 27.0. */
  lemma TripleDoubleExample()
    ensures ScoreHalfPoints(BoxScore(10, 10, 10, 0, 0, Some(0), Some(0))) == 54
  {
  }

  /** A 50-point game earns both points bonuses: 25 + 4 = 29.0. */
  lemma FiftyPointExample()
    ensures ScoreHalfPoints(BoxScore(50, 0, 0, 0, 0, Some(0), Some(0))) == 58
  {
  }

  /** The (iso_year, iso_week) key pandas assigns to a game date. */
  datatype WeekKey = WeekKey(isoYear: int, isoWeek: int)

  /** Key order of the groupby result: by year, then by week. */
  predicate KeyLess(a: WeekKey, b: WeekKey) {
    a.isoYear < b.isoYear || (a.isoYear == b.isoYear && a.isoWeek < b.isoWeek)
  }

  /** A scored game: its week key and its score in half-points. */
  datatype Game = Game(week: WeekKey, score: int)

  predicate StrictlyAscending(rows: seq<(WeekKey, int)>) {
    forall i, j :: 0 <= i < j < |rows| ==> KeyLess(rows[i].0, rows[j].0)
  }

  /** The value stored under week `k`, if any. */
  function Lookup(rows: seq<(WeekKey, int)>, k: WeekKey): Option<int> {
    if |rows| == 0 then None
    else if rows[0].0 == k then Some(rows[0].1)
    else Lookup(rows[1..], k)
  }

  function Max(a: int, b: int): int {
    if a >= b then a else b
  }

  /** The reference reading of `groupby(week).max()`: the largest score of the
      games played in week `k`, or nothing when there is none. */
  function MaxScore(games: seq<Game>, k: WeekKey): Option<int> {
    if |games| == 0 then None
    else
      var prev := MaxScore(games[..|games| - 1], k);
      var g := games[|games| - 1];
      if g.week != k then prev
      else if prev.None? then Some(g.score)
      else Some(Max(prev.value, g.score))
  }

  /** A week has a maximum exactly when some game falls in it; the maximum is
      one of that week's scores and no score of that week exceeds it. */
  lemma {:induction false} MaxScoreIsMaximum(games: seq<Game>, k: WeekKey)
    ensures MaxScore(games, k).Some? <==> exists i :: 0 <= i < |games| && games[i].week == k
    ensures MaxScore(games, k).Some? ==>
              (exists i :: 0 <= i < |games| && games[i].week == k && games[i].score == MaxScore(games, k).value)
              && forall i :: 0 <= i < |games| && games[i].week == k ==> games[i].score <= MaxScore(games, k).value
  {
    if |games| > 0 {
      var init := games[..|games| - 1];
      MaxScoreIsMaximum(init, k);
      assert forall i :: 0 <= i < |init| ==> init[i] == games[i];
    }
  }

  /** A week that sorts before the first stored week is not stored at all. */
  lemma {:induction false} LookupBelowFirst(rows: seq<(WeekKey, int)>, k: WeekKey)
    requires StrictlyAscending(rows) && |rows| > 0 && KeyLess(k, rows[0].0)
    ensures Lookup(rows, k).None?
  {
    if |rows| > 1 {
      assert KeyLess(rows[0].0, rows[1].0);
      LookupBelowFirst(rows[1..], k);
    }
  }

  /** Adds one game to the ascending per-week maxima. */
  function AddGame(rows: seq<(WeekKey, int)>, g: Game): (r: seq<(WeekKey, int)>)
    requires StrictlyAscending(rows)
    ensures StrictlyAscending(r)
    ensures |r| <= |rows| + 1
    ensures |r| > 0 && !KeyLess(g.week, r[0].0)
    ensures |rows| > 0 && !KeyLess(g.week, rows[0].0) ==> r[0].0 == rows[0].0
    ensures |rows| > 0 && KeyLess(g.week, rows[0].0) ==> r[0].0 == g.week
    ensures |rows| == 0 ==> r[0].0 == g.week
    ensures Lookup(r, g.week) == if Lookup(rows, g.week).None? then Some(g.score)
                                 else Some(Max(Lookup(rows, g.week).value, g.score))
    ensures forall k {:trigger Lookup(r, k)} :: k != g.week ==> Lookup(r, k) == Lookup(rows, k)
  {
    if |rows| == 0 then [(g.week, g.score)]
    else if rows[0].0 == g.week then
      [(g.week, Max(rows[0].1, g.score))] + rows[1..]
    else if KeyLess(g.week, rows[0].0) then
      LookupBelowFirst(rows, g.week);
      [(g.week, g.score)] + rows
    else
      var rest := AddGame(rows[1..], g);
      [rows[0]] + rest
  }

  /** `best_game_per_week`: one row per week in which a game was played, in
      ascending week order, holding that week's best score. */
  function BestPerWeek(games: seq<Game>): (r: seq<(WeekKey, int)>)
    ensures StrictlyAscending(r)
    ensures |r| <= |games|
    ensures forall k {:trigger Lookup(r, k)} :: Lookup(r, k) == MaxScore(games, k)
  {
    if |games| == 0 then []
    else
      var prev := BestPerWeek(games[..|games| - 1]);
      var r := AddGame(prev, games[|games| - 1]);
      assert |r| <= |games| by {
        assert |prev| <= |games| - 1;
      }
      r
  }

  /** Every stored week is a week with games, and every week with games is stored. */
  lemma {:induction false} LookupFindsRow(rows: seq<(WeekKey, int)>, k: WeekKey)
    ensures Lookup(rows, k).Some? <==> exists i :: 0 <= i < |rows| && rows[i].0 == k
    ensures Lookup(rows, k).Some? ==> exists i :: 0 <= i < |rows| && rows[i] == (k, Lookup(rows, k).value)
  {
    if |rows| > 0 && rows[0].0 != k {
      LookupFindsRow(rows[1..], k);
      assert forall i :: 1 <= i < |rows| ==> rows[1..][i - 1] == rows[i];
    }
  }

  /** The weekly bests as the source promises them: a week appears exactly when
      a game was played in it, and its value is a score of that week that no
      game of that week beats. */
  lemma BestPerWeekIsWeeklyMaximum(games: seq<Game>, k: WeekKey)
    ensures (exists i :: 0 <= i < |BestPerWeek(games)| && BestPerWeek(games)[i].0 == k)
            <==> exists j :: 0 <= j < |games| && games[j].week == k
    ensures forall i :: 0 <= i < |BestPerWeek(games)| && BestPerWeek(games)[i].0 == k ==>
              (exists j :: 0 <= j < |games| && games[j].week == k && games[j].score == BestPerWeek(games)[i].1)
              && forall j :: 0 <= j < |games| && games[j].week == k ==> games[j].score <= BestPerWeek(games)[i].1
  {
    var r := BestPerWeek(games);
    LookupFindsRow(r, k);
    MaxScoreIsMaximum(games, k);
    forall i | 0 <= i < |r| && r[i].0 == k
      ensures Lookup(r, k) == Some(r[i].1)
    {
      UniqueWeek(r, i, k);
    }
  }

  /** In ascending rows a week is stored at most once, so lookup finds that row. */
  lemma {:induction false} UniqueWeek(rows: seq<(WeekKey, int)>, i: int, k: WeekKey)
    requires StrictlyAscending(rows) && 0 <= i < |rows| && rows[i].0 == k
    ensures Lookup(rows, k) == Some(rows[i].1)
  {
    if i > 0 {
      assert KeyLess(rows[0].0, rows[i].0);
      assert forall j :: 1 <= j < |rows| ==> rows[1..][j - 1] == rows[j];
      UniqueWeek(rows[1..], i - 1, k);
    }
  }
}

=== FILE: shape.dfy ===
/** The batch script that cleans the weekly transaction files: it resolves
    player ids to names and keeps per-player add/drop counters across all
    files, counting only complete transactions. */
module ShapeTransactions {
  import opened Wrappers
  import opened Dicts
  import opened Raw

  /** One `player_stats` entry. */
  datatype PlayerStat = PlayerStat(fullName: string, total: nat, added: nat, dropped: nat)

  type Stats = Dict<PlayerId, PlayerStat>

  /** The players database reduced to what the script reads: for each known
      id, the record's `full_name` if it has one. */
  type PlayersDb = map<PlayerId, Option<string>>

  datatype Action = Add | Drop

  /** A player's full name from the players database, or "Unknown (<pid>)". */
  function NameOf(db: PlayersDb, pid: PlayerId): string {
    if pid in db && db[pid].Some? then db[pid].value else "Unknown (" + pid + ")"
  }

  /** Every entry's total is its adds plus its drops. */
  predicate Consistent(stats: Stats) {
    forall i :: 0 <= i < |stats| ==> stats[i].1.total == stats[i].1.added + stats[i].1.dropped
  }

  function Added(stats: Stats, p: PlayerId): nat {
    match Get(stats, p)
    case None => 0
    case Some(s) => s.added
  }

  function Dropped(stats: Stats, p: PlayerId): nat {
    match Get(stats, p)
    case None => 0
    case Some(s) => s.dropped
  }

  /** The name an id carries in `stats`: the one fixed when it was first
      inserted, or the database name for an id not yet present. */
  function KnownName(stats: Stats, db: PlayersDb, p: PlayerId): string {
    match Get(stats, p)
    case None => NameOf(db, p)
    case Some(s) => s.fullName
  }

  lemma PutConsistent(stats: Stats, p: PlayerId, s: PlayerStat)
    requires DistinctKeys(stats) && Consistent(stats)
    requires s.total == s.added + s.dropped
    ensures Consistent(Put(stats, p, s))
  {
    var r := Put(stats, p, s);
    forall i | 0 <= i < |r|
      ensures r[i].1.total == r[i].1.added + r[i].1.dropped
    {
      if r[i].0 == p {
        assert Get(r, p) == Some(r[i].1);
      } else if i < |stats| {
        if HasKey(stats, p) {
          assert Keys(r)[i] == Keys(stats)[i];
        }
        assert r[i] == stats[i];
      }
    }
  }

  /** The entry `pid` gets from one pass of the inner loop: its counters
      grow by one for `action`, starting from zero with the database name
      when `pid` is new. */
  function Bumped(stats: Stats, db: PlayersDb, pid: PlayerId, action: Action): PlayerStat {
    var s := Get(stats, pid).GetOr(PlayerStat(NameOf(db, pid), 0, 0, 0));
    s.(total := s.total + 1,
       added := s.added + (if action == Add then 1 else 0),
       dropped := s.dropped + (if action == Drop then 1 else 0))
  }

  /** One pass of the inner loop: count `pid` once for `action`. */
  function Record(stats: Stats, db: PlayersDb, pid: PlayerId, action: Action): (r: Stats)
    requires DistinctKeys(stats) && Consistent(stats)
    ensures DistinctKeys(r) && Consistent(r)
  {
    var s' := Bumped(stats, db, pid, action);
    assert s'.total == s'.added + s'.dropped by {
      if HasKey(stats, pid) {
        var i :| 0 <= i < |stats| && stats[i] == (pid, Get(stats, pid).value);
      }
    }
    PutConsistent(stats, pid, s');
    Put(stats, pid, s')
  }

  /** What one pass does to the entry of any id `p`. */
  lemma RecordEffect(stats: Stats, db: PlayersDb, pid: PlayerId, action: Action, p: PlayerId)
    requires DistinctKeys(stats) && Consistent(stats)
    ensures p == pid ==> Added(Record(stats, db, pid, action), p) == Added(stats, p) + (if action == Add then 1 else 0)
    ensures p == pid ==> Dropped(Record(stats, db, pid, action), p) == Dropped(stats, p) + (if action == Drop then 1 else 0)
    ensures p == pid ==> HasKey(Record(stats, db, pid, action), p)
    ensures p != pid ==> Get(Record(stats, db, pid, action), p) == Get(stats, p)
    ensures KnownName(Record(stats, db, pid, action), db, p) == KnownName(stats, db, p)
  {
    assert Record(stats, db, pid, action) == Put(stats, pid, Bumped(stats, db, pid, action));
  }

  /** `get_player_names_and_update_stats`: the names of the ids, in order,
      after counting each id once for `action`. An empty id list changes
      nothing and yields no names. */
  function UpdateStats(stats: Stats, db: PlayersDb, ids: seq<PlayerId>, action: Action): (r: (Stats, seq<string>))
    requires DistinctKeys(stats) && Consistent(stats)
    ensures DistinctKeys(r.0) && Consistent(r.0)
    ensures r.1 == NamesOf(db, ids)
    ensures |ids| == 0 ==> r.0 == stats
  {
    if |ids| == 0 then (stats, [])
    else
      var prev := UpdateStats(stats, db, ids[..|ids| - 1], action);
      (Record(prev.0, db, ids[|ids| - 1], action), prev.1 + [NameOf(db, ids[|ids| - 1])])
  }

  lemma UpdateStatsSnoc(stats: Stats, db: PlayersDb, ids: seq<PlayerId>, action: Action)
    requires DistinctKeys(stats) && Consistent(stats) && |ids| > 0
    ensures UpdateStats(stats, db, ids, action).0 ==
              Record(UpdateStats(stats, db, ids[..|ids| - 1], action).0, db, ids[|ids| - 1], action)
  {
  }

  /** The counters of `p` after an update: `p`'s adds (or drops) grow by the
      number of times it is listed, its name stays the one first recorded,
      and an id not listed keeps its entry untouched. */
  lemma {:induction false} UpdateStatsEffect(stats: Stats, db: PlayersDb, ids: seq<PlayerId>, action: Action, p: PlayerId)
    requires DistinctKeys(stats) && Consistent(stats)
    ensures Added(UpdateStats(stats, db, ids, action).0, p) == Added(stats, p) + (if action == Add then Count(ids, p) else 0)
    ensures Dropped(UpdateStats(stats, db, ids, action).0, p) == Dropped(stats, p) + (if action == Drop then Count(ids, p) else 0)
    ensures p !in ids ==> Get(UpdateStats(stats, db, ids, action).0, p) == Get(stats, p)
    ensures p in ids ==> HasKey(UpdateStats(stats, db, ids, action).0, p)
    ensures KnownName(UpdateStats(stats, db, ids, action).0, db, p) == KnownName(stats, db, p)
  {
    if |ids| > 0 {
      var init := ids[..|ids| - 1];
      var pid := ids[|ids| - 1];
      UpdateStatsEffect(stats, db, init, action, p);
      var prev := UpdateStats(stats, db, init, action).0;
      UpdateStatsSnoc(stats, db, ids, action);
      RecordEffect(prev, db, pid, action, p);
      CountSnoc(ids, p);
    }
  }

  /** Adds and drops can only grow `total`, which stays their sum. */
  lemma TotalIsAddsPlusDrops(stats: Stats, p: PlayerId)
    requires DistinctKeys(stats) && Consistent(stats)
    requires HasKey(stats, p)
    ensures Get(stats, p).value.total == Added(stats, p) + Dropped(stats, p)
  {
    var i :| 0 <= i < |stats| && stats[i] == (p, Get(stats, p).value);
  }

  /** One entry of a cleaned weekly file. */
  datatype Cleaned = Cleaned(status: Option<string>, txType: Option<string>,
                             addsNames: seq<string>, dropsNames: seq<string>,
                             rosterIds: Option<seq<RosterId>>)

  function NamesOf(db: PlayersDb, ids: seq<PlayerId>): (names: seq<string>)
    ensures |names| == |ids|
    ensures forall i :: 0 <= i < |ids| ==> names[i] == NameOf(db, ids[i])
  {
    if |ids| == 0 then [] else NamesOf(db, ids[..|ids| - 1]) + [NameOf(db, ids[|ids| - 1])]
  }

  /** The cleaned entry of a transaction, complete or not: status, type and
      roster ids copied, one name per adds key and per drops key. */
  function CleanedOf(db: PlayersDb, tx: RawTx): (c: Cleaned)
    ensures |c.addsNames| == |tx.adds| && |c.dropsNames| == |tx.drops|
    ensures c.status == tx.status && c.txType == tx.txType && c.rosterIds == tx.rosterIds
  {
    Cleaned(tx.status, tx.txType, NamesOf(db, Keys(tx.adds)), NamesOf(db, Keys(tx.drops)), tx.rosterIds)
  }

  /** One pass of the per-transaction loop. Only a complete transaction
      touches the counters. */
  function CleanOne(stats: Stats, db: PlayersDb, tx: RawTx): (r: (Stats, Cleaned))
    requires DistinctKeys(stats) && Consistent(stats)
    ensures DistinctKeys(r.0) && Consistent(r.0)
    ensures r.1 == CleanedOf(db, tx)
    ensures !IsComplete(tx) ==> r.0 == stats
  {
    if IsComplete(tx) then
      var a := UpdateStats(stats, db, Keys(tx.adds), Add);
      var d := UpdateStats(a.0, db, Keys(tx.drops), Drop);
      (d.0, Cleaned(tx.status, tx.txType, a.1, d.1, tx.rosterIds))
    else
      (stats, CleanedOf(db, tx))
  }

  lemma {:induction false} CleanOneEffect(stats: Stats, db: PlayersDb, tx: RawTx, p: PlayerId)
    requires DistinctKeys(stats) && Consistent(stats)
    ensures Added(CleanOne(stats, db, tx).0, p) == Added(stats, p) + (if IsComplete(tx) then Count(Keys(tx.adds), p) else 0)
    ensures Dropped(CleanOne(stats, db, tx).0, p) == Dropped(stats, p) + (if IsComplete(tx) then Count(Keys(tx.drops), p) else 0)
    ensures KnownName(CleanOne(stats, db, tx).0, db, p) == KnownName(stats, db, p)
  {
    if IsComplete(tx) {
      var a := UpdateStats(stats, db, Keys(tx.adds), Add);
      UpdateStatsEffect(stats, db, Keys(tx.adds), Add, p);
      UpdateStatsEffect(a.0, db, Keys(tx.drops), Drop, p);
    }
  }

  /** A key of a dict is listed exactly once among its keys. */
  lemma {:induction false} CountKeysOnce(d: Dict<PlayerId, RosterId>, p: PlayerId)
    requires DistinctKeys(d)
    ensures Count(Keys(d), p) == if HasKey(d, p) then 1 else 0
  {
    if |d| > 0 {
      KeysCons(d);
      CountKeysOnce(d[1..], p);
      assert HasKey(d, p) <==> d[0].0 == p || HasKey(d[1..], p) by {
        if HasKey(d[1..], p) {
          var i :| 0 <= i < |d[1..]| && d[1..][i].0 == p;
          assert d[i + 1].0 == p;
        }
        if HasKey(d, p) && d[0].0 != p {
          var i :| 0 <= i < |d| && d[i].0 == p;
          assert d[1..][i - 1].0 == p;
        }
      }
    }
  }

  /** In a complete transaction each adds key raises that player's adds by
      exactly one and each drops key their drops by exactly one. */
  lemma CompleteTxCountsEachKeyOnce(stats: Stats, db: PlayersDb, tx: RawTx, p: PlayerId)
    requires DistinctKeys(stats) && Consistent(stats)
    requires IsComplete(tx) && DistinctKeys(tx.adds) && DistinctKeys(tx.drops)
    ensures Added(CleanOne(stats, db, tx).0, p) == Added(stats, p) + (if HasKey(tx.adds, p) then 1 else 0)
    ensures Dropped(CleanOne(stats, db, tx).0, p) == Dropped(stats, p) + (if HasKey(tx.drops, p) then 1 else 0)
  {
    CleanOneEffect(stats, db, tx, p);
    CountKeysOnce(tx.adds, p);
    CountKeysOnce(tx.drops, p);
  }

  /** How often `p` is a key of the adds (or drops) of a complete transaction. */
  function Events(txs: seq<RawTx>, p: PlayerId, action: Action): nat {
    if |txs| == 0 then 0
    else
      var t := txs[|txs| - 1];
      Events(txs[..|txs| - 1], p, action)
        + (if IsComplete(t) then Count(Keys(if action == Add then t.adds else t.drops), p) else 0)
  }

  /** The cleaned entry of every transaction, in order. */
  function CleanedAll(db: PlayersDb, txs: seq<RawTx>): (cs: seq<Cleaned>)
    ensures |cs| == |txs|
    ensures forall i :: 0 <= i < |txs| ==> cs[i] == CleanedOf(db, txs[i])
  {
    seq(|txs|, i requires 0 <= i < |txs| => CleanedOf(db, txs[i]))
  }

  lemma CleanedAllSnoc(db: PlayersDb, txs: seq<RawTx>)
    requires |txs| > 0
    ensures CleanedAll(db, txs) == CleanedAll(db, txs[..|txs| - 1]) + [CleanedOf(db, txs[|txs| - 1])]
  {
  }

  /** One weekly file: the updated counters and the cleaned entries, one per
      input transaction, in input order. */
  function CleanFile(stats: Stats, db: PlayersDb, txs: seq<RawTx>): (r: (Stats, seq<Cleaned>))
    requires DistinctKeys(stats) && Consistent(stats)
    ensures DistinctKeys(r.0) && Consistent(r.0)
    ensures r.1 == CleanedAll(db, txs)
  {
    if |txs| == 0 then (stats, [])
    else
      var prev := CleanFile(stats, db, txs[..|txs| - 1]);
      var step := CleanOne(prev.0, db, txs[|txs| - 1]);
      CleanedAllSnoc(db, txs);
      (step.0, prev.1 + [step.1])
  }

  lemma CleanFileSnoc(stats: Stats, db: PlayersDb, txs: seq<RawTx>)
    requires DistinctKeys(stats) && Consistent(stats) && |txs| > 0
    ensures CleanFile(stats, db, txs).0 == CleanOne(CleanFile(stats, db, txs[..|txs| - 1]).0, db, txs[|txs| - 1]).0
  {
  }

  /** Across a file, `p`'s adds and drops grow by its add and drop events in
      complete transactions, and its recorded name never changes. */
  lemma {:induction false} CleanFileEffect(stats: Stats, db: PlayersDb, txs: seq<RawTx>, p: PlayerId)
    requires DistinctKeys(stats) && Consistent(stats)
    ensures Added(CleanFile(stats, db, txs).0, p) == Added(stats, p) + Events(txs, p, Add)
    ensures Dropped(CleanFile(stats, db, txs).0, p) == Dropped(stats, p) + Events(txs, p, Drop)
    ensures KnownName(CleanFile(stats, db, txs).0, db, p) == KnownName(stats, db, p)
  {
    if |txs| > 0 {
      var init := txs[..|txs| - 1];
      CleanFileEffect(stats, db, init, p);
      CleanFileSnoc(stats, db, txs);
      CleanOneEffect(CleanFile(stats, db, init).0, db, txs[|txs| - 1], p);
    }
  }

  /** A file of transactions none of which is complete leaves every counter
      as it was. */
  lemma {:induction false} IncompleteFileLeavesStats(stats: Stats, db: PlayersDb, txs: seq<RawTx>)
    requires DistinctKeys(stats) && Consistent(stats)
    requires forall i :: 0 <= i < |txs| ==> !IsComplete(txs[i])
    ensures CleanFile(stats, db, txs).0 == stats
  {
    if |txs| > 0 {
      IncompleteFileLeavesStats(stats, db, txs[..|txs| - 1]);
    }
  }

  /** The weekly files in order: the counters carry over from one file to
      the next, and each file gets its own cleaned list. */
  function CleanFiles(stats: Stats, db: PlayersDb, files: seq<seq<RawTx>>): (r: (Stats, seq<seq<Cleaned>>))
    requires DistinctKeys(stats) && Consistent(stats)
    ensures DistinctKeys(r.0) && Consistent(r.0)
    ensures |r.1| == |files|
  {
    if |files| == 0 then (stats, [])
    else
      var prev := CleanFiles(stats, db, files[..|files| - 1]);
      var step := CleanFile(prev.0, db, files[|files| - 1]);
      (step.0, prev.1 + [step.1])
  }

  /** Each file gets the cleaned entries of its own transactions, whatever
      the counters carried in from earlier files. */
  lemma {:induction false} CleanFilesEntries(stats: Stats, db: PlayersDb, files: seq<seq<RawTx>>, i: int)
    requires DistinctKeys(stats) && Consistent(stats)
    requires 0 <= i < |files|
    ensures CleanFiles(stats, db, files).1[i] == CleanedAll(db, files[i])
  {
    var init := files[..|files| - 1];
    if i < |files| - 1 {
      assert init[i] == files[i];
      CleanFilesEntries(stats, db, init, i);
    }
  }
}

=== FILE: sort_stats.dfy ===
/** The batch script that orders the per-player counters by number of
    transactions and summarises the five most transacted players. */
module SortStats {
  import opened Dicts
  import opened Raw
  import opened ShapeTransactions
  import Sorting

  function TotalKey(e: (PlayerId, PlayerStat)): real {
    e.1.total as real
  }

  /** `sort_stats`: the same entries, most transactions first, entries with
      equal totals in their input order. */
  function SortStats(data: Stats): (r: Stats)
    ensures multiset(r) == multiset(data)
    ensures forall i, j :: 0 <= i < j < |r| ==> r[i].1.total >= r[j].1.total
  {
    var r := Sorting.SortDesc(data, TotalKey);
    assert forall i, j :: 0 <= i < j < |r| ==> TotalKey(r[i]) >= TotalKey(r[j]);
    r
  }

  /** Sorting keeps a dict a dict: the same keys, each once, with the same values. */
  lemma SortStatsKeepsEntries(data: Stats, p: PlayerId)
    requires DistinctKeys(data)
    ensures DistinctKeys(SortStats(data))
    ensures Get(SortStats(data), p) == Get(data, p)
  {
    var r := SortStats(data);
    PermutationDistinct(data, r);
    if HasKey(data, p) {
      var k :| 0 <= k < |data| && data[k].0 == p;
      assert data[k] in multiset(r);
      var k' := IndexIn(r, data[k]);
    }
    if HasKey(r, p) {
      var k :| 0 <= k < |r| && r[k].0 == p;
      assert r[k] in multiset(data);
      var k' := IndexIn(data, r[k]);
    }
  }

  /** A reordering of a dict has distinct keys too. */
  lemma PermutationDistinct(a: Stats, b: Stats)
    requires multiset(a) == multiset(b) && DistinctKeys(a)
    ensures DistinctKeys(b)
  {
    forall i, j | 0 <= i < j < |b|
      ensures b[i].0 != b[j].0
    {
      if b[i] == b[j] {
        TwiceInMultiset(b, i, j);
        DistinctOnce(a, b[i]);
      } else {
        assert b[i] in multiset(a) && b[j] in multiset(a);
        var i', j' := IndexIn(a, b[i]), IndexIn(a, b[j]);
      }
    }
  }

  lemma TwiceInMultiset(b: Stats, i: int, j: int)
    requires 0 <= i < j < |b| && b[i] == b[j]
    ensures multiset(b)[b[i]] >= 2
  {
    assert b == b[..j] + [b[j]] + b[j + 1..];
    assert b[..j][i] == b[i];
    assert b[i] in multiset(b[..j]);
  }

  function IndexIn(data: Stats, e: (PlayerId, PlayerStat)): (i: nat)
    requires e in data
    ensures i < |data| && data[i] == e
  {
    if data[0] == e then 0 else 1 + IndexIn(data[1..], e)
  }

  /** With distinct keys an entry occurs at most once. */
  lemma {:induction false} DistinctOnce(data: Stats, e: (PlayerId, PlayerStat))
    requires DistinctKeys(data)
    ensures multiset(data)[e] <= 1
  {
    if |data| > 0 {
      assert data == [data[0]] + data[1..];
      DistinctOnce(data[1..], e);
      if data[0] == e {
        assert e !in data[1..];
      }
    }
  }

  /** Players with equal totals keep their input order, since Python's sort is stable. */
  lemma SortStatsStable(data: Stats, k: real)
    ensures Sorting.WithKey(SortStats(data), TotalKey, k) == Sorting.WithKey(data, TotalKey, k)
  {
    Sorting.SortDescIsStable(data, TotalKey, k);
  }

  /** The printed summary: the first five sorted entries, or all when fewer. */
  function TopFive(sorted: Stats): (r: Stats)
    ensures |r| <= 5 && |r| <= |sorted|
    ensures |r| == 5 || |r| == |sorted|
    ensures r == sorted[..|r|]
  {
    Sorting.Take(sorted, 5)
  }

  /** No entry outside the summary has more transactions than one inside it. */
  lemma TopFiveAreTop(data: Stats, i: int, j: int)
    requires 0 <= i < |TopFive(SortStats(data))| <= j < |SortStats(data)|
    ensures TopFive(SortStats(data))[i].1.total >= SortStats(data)[j].1.total
  {
  }
}

=== FILE: sorting.dfy ===
/** Stable descending sort by a numeric key: the behaviour of Python's
    `sorted(xs, key=f, reverse=True)` (which keeps equal keys in input order)
    and one admissible behaviour of pandas' `sort_values(ascending=False)`. */
module Sorting {

  predicate SortedDesc<T>(s: seq<T>, key: T -> real) {
    forall i, j :: 0 <= i < j < |s| ==> key(s[i]) >= key(s[j])
  }

  /** The elements of `s` whose key is `k`, in their order in `s`. */
  function WithKey<T>(s: seq<T>, key: T -> real, k: real): seq<T> {
    if |s| == 0 then []
    else (if key(s[0]) == k then [s[0]] else []) + WithKey(s[1..], key, k)
  }

  lemma WithKeyCons<T>(a: T, t: seq<T>, key: T -> real, k: real)
    ensures WithKey([a] + t, key, k) == (if key(a) == k then [a] else []) + WithKey(t, key, k)
  {
    assert ([a] + t)[1..] == t;
  }

  /** Places `x` in front of the first element whose key does not exceed its own. */
  function Insert<T>(x: T, s: seq<T>, key: T -> real): seq<T> {
    if |s| == 0 || key(s[0]) <= key(x) then [x] + s
    else [s[0]] + Insert(x, s[1..], key)
  }

  /** Inserting adds exactly the one element. */
  lemma {:induction false} InsertPermutes<T>(x: T, s: seq<T>, key: T -> real)
    ensures |Insert(x, s, key)| == |s| + 1
    ensures multiset(Insert(x, s, key)) == multiset(s) + multiset{x}
  {
    if |s| > 0 && key(s[0]) > key(x) {
      InsertPermutes(x, s[1..], key);
      assert s == [s[0]] + s[1..];
    }
  }

  lemma {:induction false} InsertSorted<T>(x: T, s: seq<T>, key: T -> real)
    requires SortedDesc(s, key)
    ensures SortedDesc(Insert(x, s, key), key)
  {
    if |s| == 0 || key(s[0]) <= key(x) {
    } else {
      var rest := Insert(x, s[1..], key);
      InsertSorted(x, s[1..], key);
      InsertPermutes(x, s[1..], key);
      forall y | y in rest
        ensures key(s[0]) >= key(y)
      {
        assert y in multiset(rest);
        if y != x {
          assert y in multiset(s[1..]);
        }
      }
    }
  }

  lemma {:induction false} InsertWithKey<T>(x: T, s: seq<T>, key: T -> real, k: real)
    ensures WithKey(Insert(x, s, key), key, k)
         == (if key(x) == k then [x] else []) + WithKey(s, key, k)
  {
    if |s| == 0 || key(s[0]) <= key(x) {
      WithKeyCons(x, s, key, k);
    } else {
      var rest := Insert(x, s[1..], key);
      var w := WithKey(s[1..], key, k);
      assert Insert(x, s, key) == [s[0]] + rest;
      assert [s[0]] + s[1..] == s;
      InsertWithKey(x, s[1..], key, k);
      WithKeyCons(s[0], rest, key, k);
      WithKeyCons(s[0], s[1..], key, k);
      if key(s[0]) == k {
        assert WithKey(Insert(x, s, key), key, k) == [s[0]] + w;
      } else if key(x) == k {
        assert WithKey(Insert(x, s, key), key, k) == [x] + w;
      } else {
        assert WithKey(Insert(x, s, key), key, k) == w;
      }
    }
  }

  function SortDesc<T(==)>(s: seq<T>, key: T -> real): (r: seq<T>)
    ensures |r| == |s|
    ensures multiset(r) == multiset(s)
    ensures SortedDesc(r, key)
  {
    if |s| == 0 then []
    else
      assert s == [s[0]] + s[1..];
      InsertSorted(s[0], SortDesc(s[1..], key), key);
      InsertPermutes(s[0], SortDesc(s[1..], key), key);
      Insert(s[0], SortDesc(s[1..], key), key)
  }

  /** Stability: for every key value, the elements carrying it keep their input order. */
  lemma {:induction false} SortDescIsStable<T>(s: seq<T>, key: T -> real, k: real)
    ensures WithKey(SortDesc(s, key), key, k) == WithKey(s, key, k)
  {
    if |s| > 0 {
      SortDescIsStable(s[1..], key, k);
      InsertWithKey(s[0], SortDesc(s[1..], key), key, k);
      WithKeyCons(s[0], s[1..], key, k);
      assert s == [s[0]] + s[1..];
    }
  }

  /** `s[:n]`, pandas' `head(n)` for n >= 0. */
  function Take<T>(s: seq<T>, n: nat): (r: seq<T>)
    ensures |r| <= n && |r| <= |s|
    ensures |r| == n || |r| == |s|
    ensures r == s[..|r|]
  {
    if n <= |s| then s[..n] else s
  }

  /** The first `n` elements of a sorted sequence are drawn from it, and no
      element left out has a larger key than an element kept. */
  lemma TakeSortedIsTop<T>(s: seq<T>, key: T -> real, n: nat, x: T, y: T)
    requires SortedDesc(s, key)
    requires y in Take(s, n) && x in multiset(s) - multiset(Take(s, n))
    ensures key(x) <= key(y)
  {
    var t := Take(s, n);
    assert s == t + s[|t|..];
    assert multiset(s) == multiset(t) + multiset(s[|t|..]);
    assert x in s[|t|..];
    var j :| 0 <= j < |s[|t|..]| && s[|t|..][j] == x;
    var i :| 0 <= i < |t| && t[i] == y;
    assert s[i] == y && s[|t| + j] == x;
  }

  /** What is kept is part of what there was. */
  lemma TakeIsSubMultiset<T>(s: seq<T>, n: nat)
    ensures multiset(Take(s, n)) <= multiset(s)
  {
    var t := Take(s, n);
    assert s == t + s[|t|..];
    assert multiset(s) == multiset(t) + multiset(s[|t|..]);
  }
}

=== FILE: team_stats.dfy ===
/** The batch script that sets each roster's win/loss record beside its
    number of completed moves. */
module TeamStats {
  import opened Wrappers
  import opened Dicts
  import opened Raw
  import Sorting
  import Text

  /** One roster's entry in `roster_info`. */
  datatype Info = Info(name: string, wins: nat, losses: nat, winPct: real, moves: nat)

  /** `win_pct` before rounding: the percentage of decided games won, 0 when
      none is decided. */
  function WinPct(wins: nat, losses: nat): (p: real)
    ensures 0.0 <= p <= 100.0
    ensures wins + losses == 0 ==> p == 0.0
    ensures p == 100.0 <==> wins > 0 && losses == 0
    ensures p == 0.0 <==> wins == 0
    ensures wins + losses > 0 ==> p * ((wins + losses) as real) == 100.0 * (wins as real)
  {
    if wins + losses > 0 then ((wins as real) / ((wins + losses) as real)) * 100.0 else 0.0
  }

  /** The entry built for one roster: owner name or "Team <rid>", wins and
      losses counted as the 'W' and 'L' characters of the record string
      (missing: no games), and no moves yet. */
  function InfoOf(users: Dict<string, string>, r: Roster): (info: Info)
    ensures info.moves == 0
    ensures info.wins == Count(r.record.GetOr(""), 'W') && info.losses == Count(r.record.GetOr(""), 'L')
    ensures info.wins + info.losses <= |r.record.GetOr("")|
    ensures info.winPct == WinPct(info.wins, info.losses)
    ensures r.ownerId.Some? && HasKey(users, r.ownerId.value) ==> info.name == Get(users, r.ownerId.value).value
    ensures r.ownerId.None? || !HasKey(users, r.ownerId.value) ==> info.name == "Team " + Text.IntToString(r.rosterId)
  {
    var record := r.record.GetOr("");
    var wins := Count(record, 'W');
    var losses := Count(record, 'L');
    CountTwo(record, 'W', 'L');
    var name := match r.ownerId
      case None => "Team " + Text.IntToString(r.rosterId)
      case Some(u) => Get(users, u).GetOr("Team " + Text.IntToString(r.rosterId));
    Info(name, wins, losses, WinPct(wins, losses), 0)
  }

  /** Two different characters together occur at most as often as the string is long. */
  lemma {:induction false} CountTwo(s: string, a: char, b: char)
    requires a != b
    ensures Count(s, a) + Count(s, b) <= |s|
  {
    if |s| > 0 {
      CountTwo(s[1..], a, b);
    }
  }

  /** A record of three wins and a loss, with other characters ignored. */
  lemma RecordExample(users: Dict<string, string>)
    ensures InfoOf(users, Roster(1, None, Some("WTWLW"))).wins == 3
    ensures InfoOf(users, Roster(1, None, Some("WTWLW"))).losses == 1
    ensures InfoOf(users, Roster(1, None, Some("WTWLW"))).winPct == 75.0
  {
    assert "WTWLW"[1..] == "TWLW";
    assert "TWLW"[1..] == "WLW";
    assert "WLW"[1..] == "LW";
    assert "LW"[1..] == "W";
    assert "W"[1..] == "";
  }

  function InfoPairs(rosters: seq<Roster>, users: Dict<string, string>): (ps: seq<(RosterId, Info)>)
    ensures |ps| == |rosters|
    ensures forall i :: 0 <= i < |rosters| ==> ps[i] == (rosters[i].rosterId, InfoOf(users, rosters[i]))
  {
    seq(|rosters|, i requires 0 <= i < |rosters| => (rosters[i].rosterId, InfoOf(users, rosters[i])))
  }

  /** `roster_info` after the roster loop. */
  function RosterInfo(rosters: seq<Roster>, users: Dict<string, string>): (d: Dict<RosterId, Info>)
    ensures DistinctKeys(d)
    ensures forall i :: 0 <= i < |d| ==> d[i].1.moves == 0
  {
    var ps := InfoPairs(rosters, users);
    var d := FromPairs(ps);
    forall i | 0 <= i < |d|
      ensures d[i].1.moves == 0
    {
      FromPairsLastWins(ps, d[i].0) by {
        FromPairsCover(ps, d[i].0);
      }
    }
    d
  }

  /** One listing of roster `rid`: its entry's move count grows by one. */
  function Visit(d: Dict<RosterId, Info>, rid: RosterId): (r: Dict<RosterId, Info>)
    ensures |r| == |d|
  {
    seq(|d|, i requires 0 <= i < |d| => if d[i].0 == rid then (d[i].0, d[i].1.(moves := d[i].1.moves + 1)) else d[i])
  }

  /** The roster loop of one transaction. */
  function VisitAll(d: Dict<RosterId, Info>, rids: seq<RosterId>): (r: Dict<RosterId, Info>)
    ensures |r| == |d|
    ensures forall i :: 0 <= i < |d| ==> r[i] == (d[i].0, d[i].1.(moves := d[i].1.moves + Count(rids, d[i].0)))
    decreases |rids|
  {
    if |rids| == 0 then d else VisitAll(Visit(d, rids[0]), rids[1..])
  }

  /** How often roster `rid` is listed by the complete transactions of `txs`. */
  function Listings(txs: seq<RawTx>, rid: RosterId): nat {
    if |txs| == 0 then 0
    else
      var t := txs[|txs| - 1];
      Listings(txs[..|txs| - 1], rid) + (if IsComplete(t) then Count(t.rosterIds.GetOr([]), rid) else 0)
  }

  /** The counting loop: only complete transactions count, a missing roster
      list is empty, and an id without an entry changes nothing. */
  function CountMoves(d: Dict<RosterId, Info>, txs: seq<RawTx>): (r: Dict<RosterId, Info>)
    ensures |r| == |d|
    ensures forall i :: 0 <= i < |d| ==> r[i] == (d[i].0, d[i].1.(moves := d[i].1.moves + Listings(txs, d[i].0)))
  {
    if |txs| == 0 then d
    else
      var t := txs[|txs| - 1];
      var prev := CountMoves(d, txs[..|txs| - 1]);
      if IsComplete(t) then VisitAll(prev, t.rosterIds.GetOr([])) else prev
  }

  function MovesKey(info: Info): real {
    info.moves as real
  }

  /** `analyze_league`: the entries, most moves first. */
  function AnalyzeLeague(rosters: seq<Roster>, users: Dict<string, string>, txs: seq<RawTx>): (r: seq<Info>)
    ensures |r| == |RosterInfo(rosters, users)|
    ensures multiset(r) == multiset(Values(CountMoves(RosterInfo(rosters, users), txs)))
    ensures Sorting.SortedDesc(r, MovesKey)
  {
    Sorting.SortDesc(Values(CountMoves(RosterInfo(rosters, users), txs)), MovesKey)
  }

  /** The roster loop makes an entry for exactly the listed roster ids. */
  lemma RosterInfoKeys(rosters: seq<Roster>, users: Dict<string, string>, rid: RosterId)
    ensures HasKey(RosterInfo(rosters, users), rid) <==> exists i :: 0 <= i < |rosters| && rosters[i].rosterId == rid
  {
    var ps := InfoPairs(rosters, users);
    FromPairsCover(ps, rid);
    if exists i :: 0 <= i < |rosters| && rosters[i].rosterId == rid {
      var i :| 0 <= i < |rosters| && rosters[i].rosterId == rid;
      assert ps[i].0 == rid;
    }
    if PairKeyed(ps, rid) {
      var i :| 0 <= i < |ps| && ps[i].0 == rid;
      assert rosters[i].rosterId == rid;
    }
  }

  /** Counting moves neither adds nor removes entries. */
  lemma CountMovesKeys(d: Dict<RosterId, Info>, txs: seq<RawTx>, rid: RosterId)
    ensures HasKey(CountMoves(d, txs), rid) <==> HasKey(d, rid)
    ensures DistinctKeys(d) ==> DistinctKeys(CountMoves(d, txs))
  {
    var r := CountMoves(d, txs);
    if HasKey(r, rid) {
      var i :| 0 <= i < |r| && r[i].0 == rid;
      assert d[i].0 == rid;
    }
    if HasKey(d, rid) {
      var i :| 0 <= i < |d| && d[i].0 == rid;
      assert r[i].0 == rid;
    }
  }

  /** Every roster id gets exactly one entry, and each entry's moves are its
      listings in complete transactions. */
  lemma OneEntryPerRoster(rosters: seq<Roster>, users: Dict<string, string>, txs: seq<RawTx>, rid: RosterId)
    ensures HasKey(CountMoves(RosterInfo(rosters, users), txs), rid) <==> exists i :: 0 <= i < |rosters| && rosters[i].rosterId == rid
    ensures DistinctKeys(CountMoves(RosterInfo(rosters, users), txs))
    ensures forall i :: 0 <= i < |CountMoves(RosterInfo(rosters, users), txs)| ==>
              CountMoves(RosterInfo(rosters, users), txs)[i].1.moves == Listings(txs, CountMoves(RosterInfo(rosters, users), txs)[i].0)
  {
    RosterInfoKeys(rosters, users, rid);
    CountMovesKeys(RosterInfo(rosters, users), txs, rid);
  }

  /** The entry of a roster id is the one built from the last roster with
      that id. */
  lemma RosterInfoEntry(rosters: seq<Roster>, users: Dict<string, string>, i: nat)
    requires i < |rosters|
    requires forall j :: i < j < |rosters| ==> rosters[j].rosterId != rosters[i].rosterId
    ensures Get(RosterInfo(rosters, users), rosters[i].rosterId) == Some(InfoOf(users, rosters[i]))
  {
    var ps := InfoPairs(rosters, users);
    assert ps[i].0 == rosters[i].rosterId;
    FromPairsLastWins(ps, rosters[i].rosterId);
    assert LastPairAt(ps, rosters[i].rosterId, i);
  }

  /** Counting adds a roster's listings to its entry's moves. */
  lemma CountedEntry(d: Dict<RosterId, Info>, txs: seq<RawTx>, rid: RosterId, info: Info)
    requires DistinctKeys(d) && Get(d, rid) == Some(info)
    ensures Get(CountMoves(d, txs), rid) == Some(info.(moves := info.moves + Listings(txs, rid)))
  {
    var k := Find(d, rid);
    CountMovesKeys(d, txs, rid);
    assert CountMoves(d, txs)[k].0 == rid;
  }

  /** After counting, a roster's entry carries that roster's name, record and
      listings, and `analyze_league` reports it. */
  lemma RosterEntry(rosters: seq<Roster>, users: Dict<string, string>, txs: seq<RawTx>, i: nat)
    requires i < |rosters|
    requires forall j :: i < j < |rosters| ==> rosters[j].rosterId != rosters[i].rosterId
    ensures Get(CountMoves(RosterInfo(rosters, users), txs), rosters[i].rosterId)
            == Some(InfoOf(users, rosters[i]).(moves := Listings(txs, rosters[i].rosterId)))
    ensures InfoOf(users, rosters[i]).(moves := Listings(txs, rosters[i].rosterId)) in AnalyzeLeague(rosters, users, txs)
  {
    var d := RosterInfo(rosters, users);
    var rid := rosters[i].rosterId;
    var info := InfoOf(users, rosters[i]);
    var e := info.(moves := Listings(txs, rid));
    RosterInfoEntry(rosters, users, i);
    CountedEntry(d, txs, rid, info);
    assert info.(moves := info.moves + Listings(txs, rid)) == e;
    ReportedEntry(CountMoves(d, txs), rid, e);
  }

  /** A value stored under a key is among the values sorted for the report. */
  lemma ReportedEntry(cm: Dict<RosterId, Info>, rid: RosterId, e: Info)
    requires Get(cm, rid) == Some(e)
    ensures e in Sorting.SortDesc(Values(cm), MovesKey)
  {
    var k :| 0 <= k < |cm| && cm[k] == (rid, e);
    assert Values(cm)[k] == e;
    assert e in multiset(Values(cm));
  }

  /** Rosters with equal move counts keep their `roster_info` order. */
  lemma AnalyzeLeagueStable(rosters: seq<Roster>, users: Dict<string, string>, txs: seq<RawTx>, k: real)
    ensures Sorting.WithKey(AnalyzeLeague(rosters, users, txs), MovesKey, k)
            == Sorting.WithKey(Values(CountMoves(RosterInfo(rosters, users), txs)), MovesKey, k)
  {
    Sorting.SortDescIsStable(Values(CountMoves(RosterInfo(rosters, users), txs)), MovesKey, k);
  }
}

=== FILE: team_waiver.dfy ===
/** The batch script that totals each team's completed moves, with separate
    counters for waiver claims and free-agent pickups. Counters are keyed by
    the owner's display name, so two rosters of one owner share a counter. */
module TeamWaiver {
  import opened Wrappers
  import opened Dicts
  import opened Raw
  import Sorting
  import Text

  /** The name a roster is filed under: its owner's display name, or
      "Unknown Team <rid>" when the owner is not a member. */
  function OwnerName(users: Dict<string, string>, r: Roster): string {
    match r.ownerId
    case None => "Unknown Team " + Text.IntToString(r.rosterId)
    case Some(u) => Get(users, u).GetOr("Unknown Team " + Text.IntToString(r.rosterId))
  }

  function RosterPairs(rosters: seq<Roster>, users: Dict<string, string>): (ps: seq<(RosterId, string)>)
    ensures |ps| == |rosters|
    ensures forall i :: 0 <= i < |rosters| ==> ps[i] == (rosters[i].rosterId, OwnerName(users, rosters[i]))
  {
    seq(|rosters|, i requires 0 <= i < |rosters| => (rosters[i].rosterId, OwnerName(users, rosters[i])))
  }

  /** `roster_to_name`; a repeated roster id keeps its first position and
      takes the later name. */
  function RosterNames(rosters: seq<Roster>, users: Dict<string, string>): (d: Dict<RosterId, string>)
    ensures DistinctKeys(d)
    ensures |d| <= |rosters|
  {
    FromPairs(RosterPairs(rosters, users))
  }

  /** Exactly the ids of the rosters are named, each with the owner name (or
      the default) of the last roster carrying that id. */
  lemma RosterNamesAreOwners(rosters: seq<Roster>, users: Dict<string, string>, rid: RosterId)
    ensures HasKey(RosterNames(rosters, users), rid) <==> exists i :: 0 <= i < |rosters| && rosters[i].rosterId == rid
    ensures HasKey(RosterNames(rosters, users), rid) ==>
              exists i :: 0 <= i < |rosters| && rosters[i].rosterId == rid
                          && Get(RosterNames(rosters, users), rid) == Some(OwnerName(users, rosters[i]))
                          && forall j :: i < j < |rosters| ==> rosters[j].rosterId != rid
  {
    var ps := RosterPairs(rosters, users);
    FromPairsCover(ps, rid);
    if PairKeyed(ps, rid) {
      FromPairsLastWins(ps, rid);
      var i := LastPair(ps, rid);
      assert rosters[i].rosterId == rid;
    }
    if exists i :: 0 <= i < |rosters| && rosters[i].rosterId == rid {
      var i :| 0 <= i < |rosters| && rosters[i].rosterId == rid;
      assert ps[i].0 == rid;
    }
  }

  /** A team's counters. */
  datatype Counters = Counters(total: nat, waiver: nat, freeAgent: nat)

  /** The counters keyed by team name, in the order the names were first seen. */
  type Board = seq<(string, Counters)>

  /** `stats` before counting: one zeroed counter per distinct team name. */
  function InitBoard(names: seq<string>): (b: Board)
    ensures DistinctKeys(b)
    ensures forall n :: HasKey(b, n) <==> n in names
    ensures forall i :: 0 <= i < |b| ==> b[i].1 == Counters(0, 0, 0)
  {
    if |names| == 0 then []
    else
      var prev := InitBoard(names[..|names| - 1]);
      var n := names[|names| - 1];
      assert names == names[..|names| - 1] + [n];
      if HasKey(prev, n) then prev
      else
        assert forall m :: HasKey(prev + [(n, Counters(0, 0, 0))], m) <==> HasKey(prev, m) || m == n by {
          forall m ensures HasKey(prev + [(n, Counters(0, 0, 0))], m) <==> HasKey(prev, m) || m == n {
            if HasKey(prev, m) {
              var i :| 0 <= i < |prev| && prev[i].0 == m;
              assert (prev + [(n, Counters(0, 0, 0))])[i] == prev[i];
            }
            assert (prev + [(n, Counters(0, 0, 0))])[|prev|].0 == n;
          }
        }
        prev + [(n, Counters(0, 0, 0))]
  }

  /** The counters after `n` listings in transactions of type `ty`. The type
      names a counter of its own when it is "waiver" or "free_agent" -- and
      also when it is "total", which then counts twice. */
  function BumpN(c: Counters, ty: Option<string>, n: nat): Counters {
    Counters(c.total + n + (if ty == Some("total") then n else 0),
             c.waiver + (if ty == Some("waiver") then n else 0),
             c.freeAgent + (if ty == Some("free_agent") then n else 0))
  }

  /** The team a listed roster id credits: a known roster with a non-empty name. */
  function Credit(rtn: Dict<RosterId, string>, rid: RosterId): Option<string> {
    var name := Get(rtn, rid);
    if name.Some? && name.value != "" then name else None
  }

  /** One pass of the roster loop: the credited team's counters move. */
  function Visit(b: Board, rtn: Dict<RosterId, string>, ty: Option<string>, rid: RosterId): (r: Board)
    ensures |r| == |b|
  {
    seq(|b|, i requires 0 <= i < |b| => if Credit(rtn, rid) == Some(b[i].0) then (b[i].0, BumpN(b[i].1, ty, 1)) else b[i])
  }

  /** How many of `rids` credit team `name`. */
  function Credits(rtn: Dict<RosterId, string>, rids: seq<RosterId>, name: string): nat {
    if |rids| == 0 then 0
    else (if Credit(rtn, rids[0]) == Some(name) then 1 else 0) + Credits(rtn, rids[1..], name)
  }

  /** The roster loop of one transaction. */
  function VisitAll(b: Board, rtn: Dict<RosterId, string>, ty: Option<string>, rids: seq<RosterId>): (r: Board)
    ensures |r| == |b|
    ensures forall i :: 0 <= i < |b| ==> r[i] == (b[i].0, BumpN(b[i].1, ty, Credits(rtn, rids, b[i].0)))
    decreases |rids|
  {
    if |rids| == 0 then b
    else
      var next := Visit(b, rtn, ty, rids[0]);
      var r := VisitAll(next, rtn, ty, rids[1..]);
      assert forall i :: 0 <= i < |b| ==> next[i].0 == b[i].0;
      r
  }

  /** One transaction: only a complete one is counted; a missing roster list
      is empty. */
  function CountTx(b: Board, rtn: Dict<RosterId, string>, tx: RawTx): (r: Board)
    ensures |r| == |b|
  {
    if IsComplete(tx) then VisitAll(b, rtn, tx.txType, tx.rosterIds.GetOr([])) else b
  }

  /** Listings of team `name` over the complete transactions of `txs`, and
      those among them in transactions of type `ty`. */
  function Listings(rtn: Dict<RosterId, string>, txs: seq<RawTx>, name: string): nat {
    if |txs| == 0 then 0
    else
      var t := txs[|txs| - 1];
      Listings(rtn, txs[..|txs| - 1], name) + (if IsComplete(t) then Credits(rtn, t.rosterIds.GetOr([]), name) else 0)
  }

  function TypedListings(rtn: Dict<RosterId, string>, txs: seq<RawTx>, name: string, ty: string): nat {
    if |txs| == 0 then 0
    else
      var t := txs[|txs| - 1];
      TypedListings(rtn, txs[..|txs| - 1], name, ty)
        + (if IsComplete(t) && t.txType == Some(ty) then Credits(rtn, t.rosterIds.GetOr([]), name) else 0)
  }

  /** The counting loop over every transaction. Each team's total grows by
      its listings in complete transactions, its waiver and free-agent
      counters by those in transactions of that type. */
  function CountAll(b: Board, rtn: Dict<RosterId, string>, txs: seq<RawTx>): (r: Board)
    ensures |r| == |b|
    ensures forall i :: 0 <= i < |b| ==> r[i].0 == b[i].0
    ensures forall i :: 0 <= i < |b| ==>
              r[i].1 == Counters(b[i].1.total + Listings(rtn, txs, b[i].0) + TypedListings(rtn, txs, b[i].0, "total"),
                                 b[i].1.waiver + TypedListings(rtn, txs, b[i].0, "waiver"),
                                 b[i].1.freeAgent + TypedListings(rtn, txs, b[i].0, "free_agent"))
  {
    if |txs| == 0 then b
    else
      var prev := CountAll(b, rtn, txs[..|txs| - 1]);
      CountTx(prev, rtn, txs[|txs| - 1])
  }

  /** Typed listings never exceed all listings. */
  lemma {:induction false} TypedAtMostListings(rtn: Dict<RosterId, string>, txs: seq<RawTx>, name: string)
    ensures TypedListings(rtn, txs, name, "waiver") + TypedListings(rtn, txs, name, "free_agent") <= Listings(rtn, txs, name)
  {
    if |txs| > 0 {
      TypedAtMostListings(rtn, txs[..|txs| - 1], name);
    }
  }

  /** Without transactions typed "total", every team's waiver and free-agent
      counters together stay within its total. */
  lemma {:induction false} SubCountersWithinTotal(names: seq<string>, rtn: Dict<RosterId, string>, txs: seq<RawTx>, i: int)
    requires 0 <= i < |InitBoard(names)|
    requires forall j :: 0 <= j < |txs| ==> txs[j].txType != Some("total")
    ensures CountAll(InitBoard(names), rtn, txs)[i].1.waiver + CountAll(InitBoard(names), rtn, txs)[i].1.freeAgent
            <= CountAll(InitBoard(names), rtn, txs)[i].1.total
  {
    TypedAtMostListings(rtn, txs, InitBoard(names)[i].0);
  }

  /** A complete transaction of the unusual type "total" counts twice toward
      the total of each listed team. */
  lemma TotalTypeCountsTwice(rtn: Dict<RosterId, string>, name: string, rid: RosterId)
    requires Get(rtn, rid) == Some(name) && name != ""
    ensures CountAll([(name, Counters(0, 0, 0))], rtn,
                     [RawTx(None, None, Some("complete"), Some("total"), None, [], [], Some([rid]), None)])[0].1
            == Counters(2, 0, 0)
  {
    var tx := RawTx(None, None, Some("complete"), Some("total"), None, [], [], Some([rid]), None);
    assert [tx][..0] == [];
    assert Credits(rtn, [rid], name) == 1;
  }

  function TotalKey(e: (string, Counters)): real {
    e.1.total as real
  }

  /** `calculate_team_moves`: map rosters to names, start every name at zero,
      count the transactions, and sort by total, largest first. */
  function TeamMoves(rosters: seq<Roster>, users: Dict<string, string>, txs: seq<RawTx>): (r: Board)
    ensures multiset(r) == multiset(CountAll(InitBoard(Values(RosterNames(rosters, users))), RosterNames(rosters, users), txs))
    ensures Sorting.SortedDesc(r, TotalKey)
  {
    var rtn := RosterNames(rosters, users);
    Sorting.SortDesc(CountAll(InitBoard(Values(rtn)), rtn, txs), TotalKey)
  }

  /** Teams with equal totals keep the order in which their names were first
      seen, since Python's sort is stable. */
  lemma TeamMovesStable(rosters: seq<Roster>, users: Dict<string, string>, txs: seq<RawTx>, k: real)
    ensures Sorting.WithKey(TeamMoves(rosters, users, txs), TotalKey, k)
            == Sorting.WithKey(CountAll(InitBoard(Values(RosterNames(rosters, users))), RosterNames(rosters, users), txs), TotalKey, k)
  {
    var rtn := RosterNames(rosters, users);
    Sorting.SortDescIsStable(CountAll(InitBoard(Values(rtn)), rtn, txs), TotalKey, k);
  }
}

=== FILE: text.dfy ===
/** String helpers standing in for Python built-ins: `str(int)`, `str.strip()`,
    `str.count(c)` and the code-point ordering `sorted()` uses on strings. */
module Text {

  function DigitChar(d: nat): char
    requires d < 10
  {
    "0123456789"[d]
  }

  function NatToString(n: nat): (s: string)
    ensures |s| > 0
    decreases n
  {
    if n < 10 then [DigitChar(n)] else NatToString(n / 10) + [DigitChar(n % 10)]
  }

  /** `str(i)` for an int. */
  function IntToString(i: int): string {
    if i < 0 then "-" + NatToString(-i) else NatToString(i)
  }

  /** The characters `str.isspace()` accepts among ASCII and Latin-1. */
  predicate IsSpace(c: char) {
    c == ' ' || c == '\t' || c == '\n' || c == '\r' || c == '\U{B}' || c == '\U{C}'
    || ('\U{1C}' <= c <= '\U{1F}') || c == '\U{85}' || c == '\U{A0}'
  }

  /** Index of the first non-whitespace character at or after `lo`, or `|s|`. */
  function SkipSpace(s: string, lo: nat): (i: nat)
    requires lo <= |s|
    ensures lo <= i <= |s|
    ensures forall k :: lo <= k < i ==> IsSpace(s[k])
    ensures i == |s| || !IsSpace(s[i])
    decreases |s| - lo
  {
    if lo == |s| || !IsSpace(s[lo]) then lo else SkipSpace(s, lo + 1)
  }

  /** Index just past the last non-whitespace character at or after `lo`, or `lo`. */
  function SkipSpaceBack(s: string, lo: nat, hi: nat): (j: nat)
    requires lo <= hi <= |s|
    ensures lo <= j <= hi
    ensures forall k :: j <= k < hi ==> IsSpace(s[k])
    ensures j == lo || !IsSpace(s[j - 1])
    decreases hi
  {
    if hi == lo || !IsSpace(s[hi - 1]) then hi else SkipSpaceBack(s, lo, hi - 1)
  }

  /** `s.strip()`: `s` without its leading and trailing whitespace. */
  function Strip(s: string): (r: string)
    ensures exists i, j :: 0 <= i <= j <= |s| && r == s[i..j]
                        && (forall k :: 0 <= k < i ==> IsSpace(s[k]))
                        && (forall k :: j <= k < |s| ==> IsSpace(s[k]))
    ensures |r| > 0 ==> !IsSpace(r[0]) && !IsSpace(r[|r| - 1])
  {
    var i := SkipSpace(s, 0);
    var j := SkipSpaceBack(s, i, |s|);
    s[i..j]
  }

  /** Python's `<` on strings: lexicographic by code point. */
  predicate Less(a: string, b: string) {
    if |a| == 0 then |b| > 0
    else if |b| == 0 then false
    else if a[0] != b[0] then a[0] < b[0]
    else Less(a[1..], b[1..])
  }

  lemma {:induction false} LessIrreflexive(a: string)
    ensures !Less(a, a)
  {
    if |a| > 0 {
      LessIrreflexive(a[1..]);
    }
  }

  lemma {:induction false} LessTransitive(a: string, b: string, c: string)
    requires Less(a, b) && Less(b, c)
    ensures Less(a, c)
  {
    if |a| > 0 && |b| > 0 && |c| > 0 && a[0] == b[0] == c[0] {
      LessTransitive(a[1..], b[1..], c[1..]);
    }
  }

  lemma {:induction false} LessTotal(a: string, b: string)
    requires a != b
    ensures Less(a, b) || Less(b, a)
  {
    if |a| > 0 && |b| > 0 && a[0] == b[0] {
      assert a == [a[0]] + a[1..];
      assert b == [b[0]] + b[1..];
      LessTotal(a[1..], b[1..]);
    }
  }

  predicate StrictlySorted(s: seq<string>) {
    forall i, j :: 0 <= i < j < |s| ==> Less(s[i], s[j])
  }

  /** Adds `x` to an ascending duplicate-free sequence, keeping it so. */
  function InsertUnique(s: seq<string>, x: string): (r: seq<string>)
    requires StrictlySorted(s)
    ensures StrictlySorted(r)
    ensures forall y :: y in r <==> y in s || y == x
  {
    if |s| == 0 then [x]
    else if s[0] == x then s
    else if Less(x, s[0]) then
      assert forall j :: 0 < j < |s| ==> Less(x, s[j]) by {
        forall j | 0 < j < |s| ensures Less(x, s[j]) {
          LessTransitive(x, s[0], s[j]);
        }
      }
      [x] + s
    else
      LessTotal(x, s[0]);
      var rest := InsertUnique(s[1..], x);
      assert forall y :: y in rest ==> Less(s[0], y);
      assert s == [s[0]] + s[1..];
      [s[0]] + rest
  }

  /** `sorted(set(xs))`. */
  function SortedUnique(xs: seq<string>): (r: seq<string>)
    ensures StrictlySorted(r)
    ensures forall y :: y in r <==> y in xs
  {
    if |xs| == 0 then []
    else
      var r := InsertUnique(SortedUnique(xs[..|xs| - 1]), xs[|xs| - 1]);
      assert xs == xs[..|xs| - 1] + [xs[|xs| - 1]];
      r
  }

  /** A strictly ascending sequence has no repeated element. */
  lemma StrictlySortedDistinct(s: seq<string>)
    requires StrictlySorted(s)
    ensures forall i, j :: 0 <= i < j < |s| ==> s[i] != s[j]
  {
    forall i, j | 0 <= i < j < |s| ensures s[i] != s[j] {
      LessIrreflexive(s[i]);
    }
  }
}

=== FILE: timeline.dfy ===
/** `build_player_timeline`: one event per transaction that adds or drops a
    given player, phrased by the transaction's type. */
module Timeline {
  import opened Wrappers
  import opened Dicts
  import opened Raw
  import opened Transactions

  /** What an event says happened to the player. */
  datatype Kind =
    | Traded(from: Option<RosterId>, to: Option<RosterId>)
    | WaiverClaim(roster: RosterId, priority: Option<int>)
    | CommissionerAdd(roster: RosterId)
    | FreeAgentAdd(roster: RosterId)
    | Dropped(roster: RosterId)

  datatype Event = Event(week: int, createdMs: int, txType: string, kind: Kind)

  /** The event for a transaction involving `p`. Only the declared type
      "trade" gives trade phrasing; otherwise presence in adds wins. */
  function EventOf(tx: Tx, p: PlayerId): (e: Event)
    requires Involves(tx, p)
    ensures e.week == tx.week && e.txType == tx.txType && e.createdMs == tx.createdMs
    ensures tx.txType == "trade" <==> e.kind.Traded?
    ensures e.kind.Traded? ==> e.kind.from == Get(tx.drops, p) && e.kind.to == Get(tx.adds, p)
    ensures tx.txType != "trade" && HasKey(tx.adds, p) ==>
              match e.kind
              case WaiverClaim(r, pr) =>
                tx.txType == "waiver" && Get(tx.adds, p) == Some(r)
                && (pr.Some? <==> tx.waiverSeq.Some?)
                && (pr.Some? ==> pr.value == tx.waiverSeq.value + 1)
              case CommissionerAdd(r) => tx.txType == "commissioner" && Get(tx.adds, p) == Some(r)
              case FreeAgentAdd(r) =>
                tx.txType != "waiver" && tx.txType != "commissioner" && Get(tx.adds, p) == Some(r)
              case _ => false
    ensures tx.txType != "trade" && !HasKey(tx.adds, p) ==>
              e.kind.Dropped? && Get(tx.drops, p) == Some(e.kind.roster)
  {
    var t := tx.txType;
    var kind :=
      if t == "trade" then Traded(Get(tx.drops, p), Get(tx.adds, p))
      else if HasKey(tx.adds, p) then
        var rid := Get(tx.adds, p).value;
        if t == "waiver" then
          WaiverClaim(rid, match tx.waiverSeq case Some(s) => Some(s + 1) case None => None)
        else if t == "commissioner" then CommissionerAdd(rid)
        else FreeAgentAdd(rid)
      else Dropped(Get(tx.drops, p).value);
    Event(tx.week, tx.createdMs, t, kind)
  }

  /** The timeline of player `p` over `txs`. */
  function Build(txs: seq<Tx>, p: PlayerId): (events: seq<Event>)
    ensures |events| <= |txs|
  {
    if |txs| == 0 then []
    else (if Involves(txs[0], p) then [EventOf(txs[0], p)] else []) + Build(txs[1..], p)
  }

  /** Number of transactions in `txs` that add or drop `p`. */
  function Involving(txs: seq<Tx>, p: PlayerId): nat {
    if |txs| == 0 then 0 else (if Involves(txs[0], p) then 1 else 0) + Involving(txs[1..], p)
  }

  /** The timeline of a concatenation is the concatenation of the timelines:
      events come out in input order. */
  lemma {:induction false} BuildAppend(a: seq<Tx>, b: seq<Tx>, p: PlayerId)
    ensures Build(a + b, p) == Build(a, p) + Build(b, p)
  {
    if |a| == 0 {
      assert a + b == b;
    } else {
      var c := a + b;
      assert c[0] == a[0];
      assert c[1..] == a[1..] + b;
      BuildAppend(a[1..], b, p);
      var h := if Involves(a[0], p) then [EventOf(a[0], p)] else [];
      assert Build(c, p) == h + Build(a[1..] + b, p);
      assert Build(a, p) == h + Build(a[1..], p);
    }
  }

  /** Exactly one event per transaction that adds or drops the player: every
      event comes from such a transaction and every such transaction yields one. */
  lemma {:induction false} BuildMatchesInvolving(txs: seq<Tx>, p: PlayerId)
    ensures |Build(txs, p)| == Involving(txs, p)
    ensures forall e :: e in Build(txs, p) ==> exists i :: 0 <= i < |txs| && Involves(txs[i], p) && e == EventOf(txs[i], p)
    ensures forall i :: 0 <= i < |txs| && Involves(txs[i], p) ==> EventOf(txs[i], p) in Build(txs, p)
  {
    if |txs| > 0 {
      var rest := txs[1..];
      BuildMatchesInvolving(rest, p);
      forall i | 0 <= i < |txs| && Involves(txs[i], p) ensures EventOf(txs[i], p) in Build(txs, p) {
        if i > 0 {
          assert rest[i - 1] == txs[i];
        }
      }
      forall e | e in Build(txs, p)
        ensures exists i :: 0 <= i < |txs| && Involves(txs[i], p) && e == EventOf(txs[i], p)
      {
        if e in Build(rest, p) {
          var i :| 0 <= i < |rest| && Involves(rest[i], p) && e == EventOf(rest[i], p);
          assert txs[i + 1] == rest[i];
        } else {
          assert Involves(txs[0], p) && e == EventOf(txs[0], p);
        }
      }
    }
  }

  /** As written, a non-trade transaction that both adds and drops the player
      is shown as an add, not as a move between rosters. */
  lemma SwapWithinNonTradeIsAnAdd(tx: Tx, p: PlayerId)
    requires tx.txType != "trade" && HasKey(tx.adds, p) && HasKey(tx.drops, p)
    ensures !EventOf(tx, p).kind.Traded? && !EventOf(tx, p).kind.Dropped?
  {
  }
}

=== FILE: transactions.dfy ===
/** The transaction loader of the Transactions page: keeps complete
    transactions, normalises each one, reclassifies pure drops, and orders them
    newest first together with the sorted ids of every player involved. */
module Transactions {
  import opened Wrappers
  import opened Dicts
  import opened Raw
  import Sorting
  import Text

  /** A normalised transaction. */
  datatype Tx = Tx(
    txId: string,
    week: int,
    txType: string,
    createdMs: int,
    adds: Dict<PlayerId, RosterId>,
    drops: Dict<PlayerId, RosterId>,
    rosterIds: seq<RosterId>,
    waiverSeq: Option<int>)

  /** The transaction type: a free-agent move that adds nobody and drops
      somebody is a pure "drop"; everything else keeps the reported type,
      which is "free_agent" when none is reported. */
  function Classify(rawType: Option<string>, adds: Dict<PlayerId, RosterId>, drops: Dict<PlayerId, RosterId>): (t: string)
    ensures t == "drop" <==>
              (rawType.GetOr("free_agent") == "free_agent" && |adds| == 0 && |drops| > 0)
              || rawType.GetOr("free_agent") == "drop"
    ensures t != "drop" ==> t == rawType.GetOr("free_agent")
    ensures t == "free_agent" ==> |adds| > 0 || |drops| == 0
  {
    var declared := rawType.GetOr("free_agent");
    if declared == "free_agent" && |adds| == 0 && |drops| > 0 then "drop" else declared
  }

  /** Classifying an already classified transaction changes nothing. */
  lemma ClassifyIdempotent(rawType: Option<string>, adds: Dict<PlayerId, RosterId>, drops: Dict<PlayerId, RosterId>)
    ensures Classify(Some(Classify(rawType, adds, drops)), adds, drops) == Classify(rawType, adds, drops)
  {
  }

  /** The record the loader builds from a complete raw transaction fetched for `week`. */
  function Normalize(raw: RawTx, week: int): (t: Tx)
    ensures t.week == raw.leg.GetOr(week)
    ensures t.createdMs == raw.created.GetOr(0)
    ensures t.adds == raw.adds && t.drops == raw.drops
    ensures t.txType == Classify(raw.txType, raw.adds, raw.drops)
    ensures t.rosterIds == raw.rosterIds.GetOr([])
    ensures t.txId == raw.transactionId.GetOr("") && t.waiverSeq == raw.waiverSeq
  {
    Tx(raw.transactionId.GetOr(""),
       raw.leg.GetOr(week),
       Classify(raw.txType, raw.adds, raw.drops),
       raw.created.GetOr(0),
       raw.adds,
       raw.drops,
       raw.rosterIds.GetOr([]),
       raw.waiverSeq)
  }

  /** Complete transactions of one week's response, normalised, in response order. */
  function KeptWeek(raws: seq<RawTx>, week: int): seq<Tx> {
    if |raws| == 0 then []
    else (if IsComplete(raws[0]) then [Normalize(raws[0], week)] else []) + KeptWeek(raws[1..], week)
  }

  /** Complete transactions of every week, in fetch order; `weeks[i]` is week `first + i`. */
  function Kept(weeks: seq<seq<RawTx>>, first: int): seq<Tx>
  {
    if |weeks| == 0 then [] else KeptWeek(weeks[0], first) + Kept(weeks[1..], first + 1)
  }

  /** Every kept record comes from a complete raw transaction. */
  lemma {:induction false} KeptWeekSound(raws: seq<RawTx>, week: int, t: Tx)
    requires t in KeptWeek(raws, week)
    ensures exists j :: 0 <= j < |raws| && IsComplete(raws[j]) && t == Normalize(raws[j], week)
  {
    if |raws| > 0 {
      if IsComplete(raws[0]) && t == Normalize(raws[0], week) {
      } else {
        KeptWeekSound(raws[1..], week, t);
        var j :| 0 <= j < |raws[1..]| && IsComplete(raws[1..][j]) && t == Normalize(raws[1..][j], week);
        assert raws[1..][j] == raws[j + 1];
      }
    }
  }

  /** Every complete raw transaction is kept. */
  lemma {:induction false} KeptWeekComplete(raws: seq<RawTx>, week: int, j: nat)
    requires j < |raws| && IsComplete(raws[j])
    ensures Normalize(raws[j], week) in KeptWeek(raws, week)
  {
    if j > 0 {
      KeptWeekComplete(raws[1..], week, j - 1);
    }
  }

  /** A transaction whose status is not "complete" never reaches the result,
      and every complete one does. */
  lemma {:induction false} KeptExactlyComplete(weeks: seq<seq<RawTx>>, first: int, t: Tx)
    ensures t in Kept(weeks, first) <==>
              exists i, j :: 0 <= i < |weeks| && 0 <= j < |weeks[i]|
                          && IsComplete(weeks[i][j]) && t == Normalize(weeks[i][j], first + i)
  {
    if |weeks| > 0 {
      KeptExactlyComplete(weeks[1..], first + 1, t);
      if t in KeptWeek(weeks[0], first) {
        KeptWeekSound(weeks[0], first, t);
        var j :| 0 <= j < |weeks[0]| && IsComplete(weeks[0][j]) && t == Normalize(weeks[0][j], first);
        assert 0 <= 0 < |weeks| && 0 <= j < |weeks[0]|
               && IsComplete(weeks[0][j]) && t == Normalize(weeks[0][j], first + 0);
      }
      if exists i, j :: 0 <= i < |weeks| && 0 <= j < |weeks[i]|
                     && IsComplete(weeks[i][j]) && t == Normalize(weeks[i][j], first + i) {
        var i, j :| 0 <= i < |weeks| && 0 <= j < |weeks[i]|
                 && IsComplete(weeks[i][j]) && t == Normalize(weeks[i][j], first + i);
        if i == 0 {
          KeptWeekComplete(weeks[0], first, j);
        } else {
          assert weeks[1..][i - 1] == weeks[i];
          assert first + 1 + (i - 1) == first + i;
        }
      }
    }
  }

  /** The player appears in the transaction's adds or drops. */
  predicate Involves(t: Tx, p: PlayerId) {
    HasKey(t.adds, p) || HasKey(t.drops, p)
  }

  /** Every adds and drops key of `txs`, in order. */
  function InvolvedIds(txs: seq<Tx>): (ps: seq<PlayerId>)
    ensures forall p :: p in ps <==> exists t :: t in txs && Involves(t, p)
  {
    if |txs| == 0 then []
    else
      var ps := Keys(txs[0].adds) + Keys(txs[0].drops) + InvolvedIds(txs[1..]);
      forall p ensures p in ps <==> exists t :: t in txs && Involves(t, p) {
        if p in Keys(txs[0].adds) || p in Keys(txs[0].drops) {
          assert Involves(txs[0], p);
        }
        if p in InvolvedIds(txs[1..]) {
          var t :| t in txs[1..] && Involves(t, p);
          assert t in txs;
        }
        if exists t :: t in txs && Involves(t, p) {
          var t :| t in txs && Involves(t, p);
          if t != txs[0] {
            assert t in txs[1..];
          } else {
            assert p in Keys(t.adds) || p in Keys(t.drops);
          }
        }
      }
      ps
  }

  function CreatedKey(t: Tx): real {
    t.createdMs as real
  }

  /** `fetch_all_transactions`: the kept transactions, newest first, and the
      sorted, duplicate-free ids of every player they add or drop.
      `weeks[i]` is the response for week `i + 1`. */
  function FetchAll(weeks: seq<seq<RawTx>>): (r: (seq<Tx>, seq<PlayerId>))
    ensures multiset(r.0) == multiset(Kept(weeks, 1))
    ensures Sorting.SortedDesc(r.0, CreatedKey)
    ensures Text.StrictlySorted(r.1)
    ensures forall p :: p in r.1 <==> exists t :: t in r.0 && Involves(t, p)
  {
    var kept := Kept(weeks, 1);
    var txs := Sorting.SortDesc(kept, CreatedKey);
    var pids := Text.SortedUnique(InvolvedIds(kept));
    SameMembers(txs, kept);
    (txs, pids)
  }

  lemma SameMembers(a: seq<Tx>, b: seq<Tx>)
    requires multiset(a) == multiset(b)
    ensures forall t :: t in a <==> t in b
  {
    forall t ensures t in a <==> t in b {
      assert t in a <==> t in multiset(a);
      assert t in b <==> t in multiset(b);
    }
  }

  /** Equal timestamps keep fetch order. */
  lemma FetchAllStable(weeks: seq<seq<RawTx>>, ms: int)
    ensures Sorting.WithKey(FetchAll(weeks).0, CreatedKey, ms as real)
         == Sorting.WithKey(Kept(weeks, 1), CreatedKey, ms as real)
  {
    Sorting.SortDescIsStable(Kept(weeks, 1), CreatedKey, ms as real);
  }
}

=== FILE: wrappers.dfy ===
/** Option and Result, used wherever the source returns `None` or raises. */
module Wrappers {

  datatype Option<+T> = None | Some(value: T) {

    /** The value, or `default` when absent (Python's `d.get(k, default)`). */
    function GetOr(default: T): T {
      match this
      case Some(v) => v
      case None => default
    }
  }

  datatype Result<+T, +E> = Success(value: T) | Failure(error: E)
}
